=== FILE: README.md ===
# Syslog analyser: parser and aggregator

A Dafny model of the two pure stages of a small syslog analyser written in
Rust. There are three parts:

- **The record parser** (`src/parser.rs`).
  - It slices one line off a byte buffer, up to a run of null (0x00) and line-feed (0x0A) bytes.
  - It splits the line into timestamp, hostname, process name, pid and message.
  - An iterator repeats this until the buffer is used up.
- **The statistics aggregator** (`src/logs.rs`).
  - `LogStatsBuilder` folds records into a record counter and three frequency tables: per process, per host and per keyword.
  - `build` derives the most frequent process and host.
  - It also derives the ranked, cut-off list of top keywords.
- **The pure pipeline** of the file-level entry point: parse every record, add each one, build.

| Module (file) | Contents |
|---|---|
| `Results` (`results.dfy`) | `Option` and `Result` with failure propagation. |
| `Text` (`text.dfy`) | ASCII character classes; the maximal-prefix take `TakeWhile` that every parser step uses; lexicographic string order; lower-casing; decimal digits. |
| `Counting` (`counting.dfy`) | Frequency tables `map<string, nat>`: one `insert(get.unwrap_or(0) + 1)` (`Bump`), many of them (`BumpAll`), and the ghost sum `Total`. |
| `Tokens` (`tokens.dfy`) | Keyword extraction from a message: split on every non-alphabetic character, lower-case, drop stopwords and empty pieces. |
| `Ranking` (`ranking.dfy`) | The most-frequent scan; sorting by count descending, then keyword ascending; and the top-keyword cutoff. |
| `Logs` (`logs.dfy`) | `LogEntry`, `LogStatsBuilder`, `LogStats`, `new`, `add_log_entry` and `build`, plus the builder invariant (count conservation). |
| `Parser` (`parser.dfy`) | `parse_line`, `parse_timestamp`, `parse_hostname`, `parse_process_name`, `parse_pid`, `parse_whitespace`, `parse_log_entry`, and the iterator (`Next`, run to the end by `ParseAll`). |
| `SyslogLines` (`syslog_lines.dfy`) | A printer for the line format, the inverse the parser is checked against: rendered lines, with any whitespace runs between their fields, parse back to those fields. |
| `Analyzer` (`analyzer.dfy`) | The pipeline: bytes, then records, then the builder, then statistics. |
| `Scenarios` (`scenarios.dfy`) | The repository's single-record tests, and a tie at the eleventh place of the keyword cutoff. |

Modelling choices:

- **Bytes and text.**
  - Bytes are integers 0..255.
  - Decoding a line accepts ASCII only.
  - Rust's `is_alphabetic`, `is_digit(10)`, `is_whitespace` and `to_lowercase` become their ASCII versions. Whitespace is tab through carriage return (0x09..0x0D) and space.
- **Failure.** The source aborts the process on a bad record: `unwrap` at src/parser.rs:21 and :33, and `expect` at :112. The model returns a `Failure` instead, which ends the whole run; a bad record is never skipped (`Parser.Next`, `Parser.ParseAll`, `Parser.ParseAllFails`). There are three error values:
  - `MalformedRecord`: the one nom error that can occur, a `take(1)` of `parse_pid` (src/parser.rs:107, :109, :110) finding nothing left; the `unwrap` at :21 then aborts.
  - `InvalidText`: the panic of `from_utf8(..).unwrap()` at src/parser.rs:33, on line bytes that do not decode: exactly when a byte outside ASCII comes before the first separator (`Parser.ParseLineFails`).
  - `InvalidPid`: the panic of `expect` at src/parser.rs:112, on a digit run that is empty or exceeds 2^32 − 1.
- **Hash-map iteration order.** The visiting order of a Rust `HashMap` is unspecified. `MostFrequent` and `Rank` therefore pick the next key with a nondeterministic choice (`:|`), and `Build` is a method.
  - For the most frequent name, the contract says only "some key with the largest count". Which of several tied keys wins is left open, as it is in the source.
  - The ranking order is strict and total, so the ranking is unique (`RankingUnique`). Insertion into a sorted sequence therefore gives exactly what `sort_by` gives.
- **Stopwords.** The stopword list is a parameter `stopwords: set<string>`.

Three behaviours of the code that a reader might not expect:

- **`parse_pid` (src/parser.rs:106-113).** It takes one arbitrary character, the digits, then two more arbitrary characters. It never checks that they are `[`, `]` and `:` (`ParsePidExact`).
- **Blank lines.** A buffer that starts with a null or line-feed byte fails (`LeadingSeparatorFails`). Its first line is empty and has no pid field. Blank lines between records are skipped, together with the terminator of the record before them.
- **Keyword cutoff.** With at most eleven distinct keywords, all of them are kept (src/logs.rs:107-115). The record `Alfa Bravo Charlie Alfa Bravo` therefore keeps `alfa`, `bravo` and `charlie` (`Scenarios.RepeatedWords`), not the two keywords the test at src/main.rs:49 expects.

## Model

| member | source | states |
|---|---|---|
| Text.TakeWhile | src/parser.rs:115-117 | The maximal-prefix take used by every field step (nom `take_while`, `take_till`). The run followed by the rest is the input; every element of the run satisfies the predicate; the rest is empty or starts with an element that does not. |
| Text.TakeWhileExact | src/parser.rs:74-84 | Any split into a satisfying run and a rest that stops it is exactly the one the take returns, so each field step's result is unique. |
| Text.StrLtIrreflexive | src/logs.rs:103 | No string sorts strictly before itself under the keyword tie-break order. |
| Text.StrLtTransitive | src/logs.rs:103 | The keyword tie-break order is transitive. |
| Text.StrLtTotal | src/logs.rs:103 | Any two different keywords are ordered one way or the other. |
| Text.Lower | src/logs.rs:64 | Lower-casing keeps the length and lower-cases each character on its own. |
| Text.LowerIdempotent | src/logs.rs:64 | Lower-casing twice is lower-casing once, so stored keywords are already lower case. |
| Text.LowerKeepsAlphabetic | src/logs.rs:63-64 | A lower-cased alphabetic piece is still alphabetic. |
| Text.DecimalRoundTrip | src/parser.rs:112 | The value of a number's decimal spelling is that number: the inverse of reading the pid digits. |
| Counting.Bump | src/logs.rs:51-53 | Counting one occurrence adds the key if it was missing, raises its count by one from `unwrap_or(0)`, and leaves every other count as it was. |
| Counting.BumpAll | src/logs.rs:67-75 | Counting a list of keywords raises each key's count by its number of occurrences in the list, and adds exactly the keys of the list. |
| Counting.TotalSwap | src/logs.rs:51-53 | A table's sum does not depend on which key is taken out first. |
| Counting.TotalBump | src/logs.rs:51-53 | Counting one occurrence raises the table's sum by exactly one. |
| Counting.BumpAllPositive | src/logs.rs:73-74 | Counting never stores a zero count. |
| Tokens.Split | src/logs.rs:63 | `split` on non-alphabetic characters: one more piece than there are delimiters, and every piece alphabetic. |
| Tokens.SplitJoin | src/logs.rs:63 | Splitting loses nothing: putting the delimiters back between the pieces rebuilds the message. |
| Tokens.JoinSplit | src/logs.rs:63 | Alphabetic pieces joined by delimiters split back into the same pieces and delimiters (the other direction of the round trip). |
| Tokens.SplitAlphabetic | src/logs.rs:63 | A message without delimiters is a single piece. |
| Tokens.SplitAtDelimiter | src/logs.rs:63 | A delimiter separates the pieces before it from the pieces after it. |
| Tokens.KeywordsOf | src/logs.rs:64-71 | Every piece kept after lower-casing and the stopword and emptiness filters is a keyword: non-empty, alphabetic, lower case, not a stopword; no more keywords than pieces. |
| Tokens.KeywordsOfAppend | src/logs.rs:61-71 | The filter works piece by piece: filtering two lists of pieces is filtering each. |
| Tokens.Keywords | src/logs.rs:60-71 | Every keyword extracted from a message is non-empty, alphabetic, lower case and not a stopword. |
| Tokens.KeywordsAtDelimiter | src/logs.rs:61-71 | The keywords of a message are those of the text before any delimiter followed by those after it. |
| Tokens.AdjacentDelimiters | src/logs.rs:68-71 | The empty piece between two adjacent delimiters adds no keyword. |
| Tokens.StopwordDropped | src/logs.rs:65 | A word that is a stopword once lower-cased contributes no keyword. |
| Ranking.BeforeIrreflexive | src/logs.rs:103 | No entry ranks before itself. |
| Ranking.BeforeAsymmetric | src/logs.rs:103 | Two entries never rank before each other. |
| Ranking.BeforeTransitive | src/logs.rs:103 | Ranking by count descending, then keyword ascending, is transitive. |
| Ranking.BeforeTotal | src/logs.rs:103 | Two different entries are always ranked one way or the other. |
| Ranking.Insert | src/logs.rs:103 | Inserting into a sorted list keeps it sorted and adds exactly that entry. |
| Ranking.Rank | src/logs.rs:102-103 | The collected and sorted entries list every key of the table exactly once with its count, in ranking order, whatever order the keys are visited in. |
| Ranking.RankingUnique | src/logs.rs:102-103 | Two rankings of the same table are equal, so the sort's result does not depend on the hash map's order. |
| Ranking.RankingLength | src/logs.rs:102 | A ranking has one entry per key. |
| Ranking.CutoffUnique | src/logs.rs:105-115 | At most one list satisfies the cutoff rule for a given ranking. |
| Ranking.TopKeywords | src/logs.rs:105-115 | The kept keywords are a prefix of the ranking: all of it when it has at most eleven entries, otherwise the first eleven and then exactly the following entries that tie with the eleventh. |
| Ranking.TopKeywordsShape | src/logs.rs:102-115 | The top keywords are keys of the table, without repeats, in ranking order; every keyword left out ranks after every keyword kept; with at most eleven keys, all are kept. |
| Ranking.CutoffByCount | src/logs.rs:107-115 | Past eleven entries, an entry is kept exactly when its count is at least the eleventh's: a tie group at the boundary is never split. |
| Ranking.MostFrequent | src/logs.rs:80-87 | The scan for a strictly larger count, from zero and the empty name, yields either "" with every count zero, or a key with a positive count that no other count exceeds. |
| Ranking.MostFrequentEmpty | src/logs.rs:80-100 | On a table without zero counts, the scan yields `""` for the empty table, and otherwise a key holding the largest count (which may itself be `""`, the name of a process field left empty). |
| Logs.New | src/logs.rs:36-46 | A new builder has seen no record and has empty tables. |
| Logs.AddLogEntry | src/logs.rs:48-76 | Adding a record raises the total by one and the counts of its process and host by one each. All other process and host counts stay the same. Each keyword's count rises by its number of occurrences in the message, and only keywords are added. |
| Logs.AddPreservesValid | src/logs.rs:48-76 | Adding a record keeps the builder invariant: both tables sum to the total, no zero counts, and only keywords in the keyword table. |
| Logs.AddKeepsTotals | src/logs.rs:48-57 | Adding a record raises each table's sum by one, as it raises the total. |
| Logs.AddKeepsKeys | src/logs.rs:48-76 | Adding a record stores no zero count and puts only keywords in the keyword table. |
| Logs.AddAll | src/parser.rs:123-125 | Adding a list of records raises the total by the list's length. |
| Logs.NewValid | src/logs.rs:36-46 | A new builder satisfies the invariant. |
| Logs.AddAllValid | src/logs.rs:36-76 | From `new`, after any sequence of adds, the process counts and the host counts each sum to the total, and every keyword key is non-empty, alphabetic, lower case and not a stopword. |
| Logs.AddAllMonotone | src/logs.rs:48-76 | No count ever goes down as records are added. |
| Logs.NoRecords | src/logs.rs:80-100 | A valid builder has seen no record exactly when its process table is empty and both most frequent names are "". |
| Logs.TopAreKeywords | src/logs.rs:60-115 | Every keyword kept by the cutoff is a stored keyword: non-empty, alphabetic, lower case, not a stopword. |
| Logs.Build | src/logs.rs:79-127 | The total and both tables pass through unchanged; the most frequent process and host are as the scan promises; the top keywords are the cutoff of the table's unique ranking. |
| Parser.Decode | src/parser.rs:33 | Line bytes decode exactly when every byte is ASCII; the text re-encodes to the same bytes; otherwise the error is `InvalidText`. |
| Parser.DecodeEncode | src/parser.rs:33 | Decoding encoded text gives the text back. |
| Parser.ParseLine | src/parser.rs:28-34 | The buffer splits into the line's bytes, a run of separators, and a rest that does not start with one. The line holds no null or line feed and re-encodes to its bytes. The line is maximal: unless the buffer is used up, at least one separator follows it. |
| Parser.ParseLineFails | src/parser.rs:28-33 | Slicing a line fails exactly when a byte outside ASCII comes before the first separator. |
| Parser.ParseWhitespace | src/parser.rs:115-117 | The maximal whitespace prefix is taken and the rest does not start with whitespace. |
| Parser.ParseTimestamp | src/parser.rs:73-93 | The timestamp step leaves a suffix of its input that does not start with whitespace. |
| Parser.ParseTimestampExact | src/parser.rs:73-93 | On a line made of maximal alphabetic, whitespace, digit, whitespace, digit-or-colon and whitespace runs (any possibly empty), the timestamp is month, day and time joined by single spaces, and the rest is what follows. |
| Parser.ParseHostname | src/parser.rs:95-99 | The hostname is the maximal non-whitespace prefix; the whitespace after it is skipped; the rest does not start with whitespace. |
| Parser.ParseHostnameExact | src/parser.rs:95-99 | On a non-whitespace run, whitespace and a rest, the hostname is exactly that run. |
| Parser.ParseProcessName | src/parser.rs:101-104 | The process name is the longest `[`-free prefix; the rest is empty or starts with `[`. |
| Parser.ParsePid | src/parser.rs:106-113 | An empty input fails with `MalformedRecord`: the opening `take(1)` finds nothing. Fewer than three characters always fail. A parsed pid field consumes at least four characters and leaves a suffix that does not start with whitespace. |
| Parser.ParsePidShort | src/parser.rs:106-110 | A digit run followed by fewer than two characters fails with `MalformedRecord`: the closing `take(1)` finds nothing. |
| Parser.NoBracketLeavesNothing | src/parser.rs:101-104 | On any tail of a line without `[`, the process name takes everything and leaves nothing for the pid field. |
| Parser.NoPidFieldFails | src/parser.rs:101-107 | A line that decodes but holds no `[` has no pid field: the record fails with `MalformedRecord`, which is the `unwrap` panic at src/parser.rs:21. |
| Parser.ParsePidExact | src/parser.rs:106-113 | For any first character, digit run, two characters after it, whitespace and rest, the pid is the digits' decimal value and the message is the rest. An empty run, or a value above 2^32 − 1, is `InvalidPid`. The three delimiter characters are not checked. |
| Parser.ParseLogEntry | src/parser.rs:27-71 | A line that does not decode fails with `InvalidText`. A parsed record consumes at least four bytes, leaves a suffix of the buffer that does not start with a separator, and its message holds no null or line feed. Its fields are pinned by `SyslogLines.ParseRendered`. |
| Parser.RecordIsOneLine | src/parser.rs:36-70 | A record is exactly one line: it leaves what slicing off the line leaves, and its message is a tail of that line. |
| Parser.ParseLogEntrySteps | src/parser.rs:36-70 | When all five steps succeed, the record holds the timestamp, hostname, process name, pid and message they give, and the rest of the buffer after the line. |
| Parser.MessageOfLine | src/parser.rs:55-68 | The message is the tail of its line after at least the four characters of the pid field, so it holds no separator. |
| Parser.Next | src/parser.rs:16-24 | The iterator yields nothing exactly on an empty buffer. On a non-empty buffer it fails exactly when the record fails, with that record's error, and otherwise yields that record; each record leaves at least four fewer bytes. |
| Parser.ParseAll | src/parser.rs:16-24 | An empty buffer gives no records. A bad first record fails the whole run with its error; otherwise the run starts with that record. The run terminates, because every record costs at least four bytes: a buffer of n bytes yields at most n/4 records. |
| Parser.ParseAllFails | src/parser.rs:16-24 | A bad first record is not skipped: the whole run fails with its error. |
| Parser.LeadingSeparatorFails | src/parser.rs:27-71 | A buffer starting with a null or line feed fails with `MalformedRecord`, both as one record and as a run. |
| SyslogLines.ParseLineExact | src/parser.rs:28-34 | An encoded separator-free line followed by separators and a rest is sliced into exactly that line and that rest. |
| SyslogLines.ParseRendered | src/parser.rs:27-71 | A well-formed line, rendered as `Mon D HH:MM:SS host process[pid]: message` with any whitespace runs between the fields (all non-empty except the one after `]:`, as in `Jul  1 09:00:55`), parses back to exactly its fields; the timestamp comes back with single spaces. |
| SyslogLines.NextOfRecord | src/parser.rs:16-24 | On a non-empty buffer the iterator yields exactly the record parsed off it. |
| SyslogLines.ParseAllOfNext | src/parser.rs:16-24 | A yielded record is followed by the records of the rest of the buffer, or by its error. |
| SyslogLines.ParseAllStep | src/parser.rs:16-24 | One successful iterator step, then the rest of the run. |
| SyslogLines.ParseAllRendered | src/parser.rs:16-24 | Parsing a rendered file followed by any tail yields the file's records in order, then the tail's outcome: its records or its error. |
| SyslogLines.ParseLogRoundTrip | src/parser.rs:16-71 | A file of well-formed lines parses to exactly their records. |
| Analyzer.Analyse | src/parser.rs:121-126 | A bad record yields its error and no statistics. Otherwise the statistics are those of the parsed records added in order to a fresh builder: the same total and tables, a most frequent process and host as the scan promises, and the cutoff of the unique keyword ranking. The total is the number of records and both tables sum to it. There are no records exactly when both most frequent names are "" and the process table is empty. Every top keyword is a keyword. |
| Scenarios.WordKeyword | src/logs.rs:61-71 | A single alphabetic word yields its lower-cased self unless that is a stopword. |
| Scenarios.FirstWord | src/logs.rs:61-71 | A word, a space and more text yield the word's keyword, then the keywords of the rest. |
| Scenarios.FiveWords | src/logs.rs:61-71 | Five space-separated words yield their five keywords in order. |
| Scenarios.FiveWordKeywords | src/main.rs:20 | `Alfa Bravo Charlie Delta Echo` yields `alfa`, `bravo`, `charlie`, `delta`, `echo`. |
| Scenarios.BumpAllFromEmpty | src/logs.rs:67-75 | Counting a keyword list from nothing gives each keyword its number of occurrences and nothing else. |
| Scenarios.FiveTop | src/logs.rs:102-115 | Five keywords tied at one are all kept, alphabetically. |
| Scenarios.FirstRecordTables | src/logs.rs:48-57 | A first record gives its process and host a count of one each. |
| Scenarios.OneRecord | src/logs.rs:36-127 | One record added to a fresh builder gives total one, its process and host as the only keys at one, both as most frequent, and the cutoff of its keywords' counts. |
| Scenarios.SingletonMostFrequent | src/logs.rs:80-87 | The most frequent name in a one-key table is that key. |
| Scenarios.SingleEntry | src/main.rs:13-32 | The record `kernel` on `calvisitor-10-105-160-95` gives total one, both tables with that key at one, both names most frequent, and top keywords `alfa`, `bravo`, `charlie`, `delta`, `echo`. |
| Scenarios.RepeatWordKeywords | src/main.rs:40 | `Alfa Bravo Charlie Alfa Bravo` yields `alfa`, `bravo`, `charlie`, `alfa`, `bravo`: a repeated word is counted again. |
| Scenarios.RepeatTop | src/logs.rs:102-115 | With alfa and bravo at two and charlie at one, all three are kept in that order. |
| Scenarios.RepeatedWords | src/main.rs:34-48 | The record `netbiosd` on `home` with `Alfa Bravo Charlie Alfa Bravo` gives total one and those names most frequent. The top keywords are `alfa`, `bravo`, `charlie`, since fewer than eleven keywords are all kept. |
| Scenarios.TieAtBoundary | src/logs.rs:107-115 | Thirteen keywords counted 5, 5, 5, nine times 4, then 3: the twelve with count at least 4 are kept and the last is not. |

## Left out

- Reading the file and memory-mapping it (src/parser.rs:119-120) are I/O. `Analyzer.Analyse` models the pure fold of `parse` over a byte sequence.
- Parser.Decode: only ASCII lines are accepted. A line holding valid multi-byte UTF-8, which the source accepts, fails with `InvalidText` here. Unicode decoding is not modelled.
- The character classes and lower-casing are ASCII only. Unicode letters, digits, whitespace and case mapping are not modelled.
- The `trim` at src/logs.rs:68 is not modelled, because pieces made only of alphabetic characters have no surrounding whitespace.
- The NLTK English stopword list (src/logs.rs:60) comes from an external crate. It is the `stopwords` parameter, fixed for a whole run; the source reloads the same list for every record.
- The `u32` counters of the three tables (src/logs.rs:17-22) and `usize` total are unbounded `nat`s. Overflow after 2^32 − 1 occurrences is not modelled.
- Logs.Build: leaves open which key wins when several share the largest count. It depends on the hash map's iteration order. The two-record test at src/main.rs:99 relies on that order.
- The re-mapping of nom errors to the rest of the buffer after the line (src/parser.rs:36-60) is not modelled. The only nom error that can occur becomes `MalformedRecord`, and its position is not kept.
- The builder's `most_frequent_*` and `top_keywords` fields (src/logs.rs:19-21) are only written by `build`. They are not part of the `LogStatsBuilder` datatype; `Build` returns them directly in `LogStats`.
- `Serialize` on `LogStats` (src/logs.rs:25) is output plumbing.
- `main` (src/main.rs:4-6) only prints.
- The test expectations at src/main.rs:49 and src/main.rs:76 are not encoded. They disagree with the cutoff at src/logs.rs:107-115; see `Scenarios.RepeatedWords`.
- The two-record tests at src/main.rs:52-105 are not restated as scenarios. Two of their expectations do not follow from the source:
  - src/main.rs:76 expects `["alfa"]`. The cutoff keeps every keyword when there are at most eleven, so `alfa`, `bravo` and `charlie` are all kept (`Ranking.TopKeywordsShape`).
  - src/main.rs:99 expects `process_1` while `process_1` and `process_2` both have count one. The strict-greater scan keeps whichever tied key the hash map visits first, which `Ranking.MostFrequent` leaves open.

=== FILE: analyzer.dfy ===
/**
 The whole analysis: parse every record of the buffer, add each to a fresh
 builder, build the statistics. Reading the file is left to the caller.
 */
module Analyzer {
  import opened Results
  import opened Counting
  import opened Tokens
  import opened Ranking
  import opened Logs
  import opened Parser

  /**
   Statistics of a whole buffer, or the error of its first bad record (no
   partial statistics). The statistics are those of the parsed records added
   in order to a fresh builder, so counts are conserved: the per-process and
   per-host counts both sum to the number of records.
   */
  method Analyse(data: seq<byte>, stopwords: set<string>) returns (r: Result<LogStats, ParseError>)
    ensures ParseAll(data).Failure? ==> r == Failure(ParseAll(data).error)
    ensures ParseAll(data).Success? ==> r.Success?
    ensures r.Success? ==>
      var entries := ParseAll(data).value;
      var s := r.value;
      && s.totalEntries == |entries|
      && Total(s.byProcess) == |entries|
      && Total(s.byHostname) == |entries|
      && (|entries| == 0 <==> s.mostFrequentProcess == "" && s.mostFrequentHostname == "" && |s.byProcess| == 0)
      && (forall i :: 0 <= i < |s.topKeywords| ==> IsKeyword(s.topKeywords[i], stopwords))
    ensures r.Success? ==>
      var b := AddAll(New(), ParseAll(data).value, stopwords);
      var s := r.value;
      && s.totalEntries == b.totalEntries
      && s.byProcess == b.byProcess && s.byHostname == b.byHostname
      && IsMostFrequent(b.byProcess, s.mostFrequentProcess)
      && IsMostFrequent(b.byHostname, s.mostFrequentHostname)
      && exists ranked :: IsRanking(b.keywordCount, ranked) && IsCutoff(ranked, s.topKeywords)
  {
    var parsed := ParseAll(data);
    if parsed.Failure? {
      return Failure(parsed.error);
    }
    var entries := parsed.value;
    var b := AddAll(New(), entries, stopwords);
    NewValid(stopwords);
    AddAllValid(New(), entries, stopwords);
    var s := Build(b);
    var ranked :| IsRanking(b.keywordCount, ranked) && IsCutoff(ranked, s.topKeywords);
    TopAreKeywords(b, stopwords, ranked, s.topKeywords);
    NoRecords(b, stopwords, s.mostFrequentProcess, s.mostFrequentHostname);
    r := Success(s);
  }
}

=== FILE: counting.dfy ===
/**
 Frequency tables: maps from a name to how often it was seen. A missing key
 reads as zero, as `get(..).unwrap_or(&0)` does in the aggregator.
 */
module Counting {

  type Counts = map<string, nat>

  function CountOf(m: Counts, k: string): nat {
    if k in m then m[k] else 0
  }

  /** Records one more occurrence of `k`; every other slot is left as it was. */
  function Bump(m: Counts, k: string): (r: Counts)
    ensures r.Keys == m.Keys + {k}
    ensures r[k] == CountOf(m, k) + 1
    ensures forall j :: j in m && j != k ==> r[j] == m[j]
  {
    m[k := CountOf(m, k) + 1]
  }

  /** Records one occurrence per element of `ks`, in order. */
  function BumpAll(m: Counts, ks: seq<string>): (r: Counts)
    ensures forall k :: CountOf(r, k) == CountOf(m, k) + multiset(ks)[k]
    ensures forall k :: k in r <==> k in m || k in ks
    decreases |ks|
  {
    if |ks| == 0 then m
    else
      assert ks == [ks[0]] + ks[1..];
      BumpAll(Bump(m, ks[0]), ks[1..])
  }

  /** Every key present has been counted at least once. */
  predicate AllPositive(m: Counts) {
    forall k :: k in m ==> m[k] > 0
  }

  /** The sum of all counts in `m`. */
  ghost function Total(m: Counts): nat
    decreases |m|
  {
    if |m| == 0 then 0
    else
      var k :| k in m;
      m[k] + Total(m - {k})
  }

  lemma RemoveCommutes(m: Counts, j: string, k: string)
    ensures (m - {j}) - {k} == (m - {k}) - {j}
  {
  }

  /** Total does not depend on which key is taken out first. */
  lemma {:induction false} TotalRemove(m: Counts, k: string)
    requires k in m
    ensures Total(m) == m[k] + Total(m - {k})
    decreases |m|, 1
  {
    assert |m| > 0 by {
      assert k in m.Keys;
    }
    var j :| j in m && Total(m) == m[j] + Total(m - {j});
    if j != k {
      TotalSwap(m, j, k);
    }
  }

  /** Taking out j first or k first gives the same sum. */
  lemma {:induction false} TotalSwap(m: Counts, j: string, k: string)
    requires j in m && k in m && j != k
    ensures m[j] + Total(m - {j}) == m[k] + Total(m - {k})
    decreases |m|, 0
  {
    var mj := m - {j};
    var mk := m - {k};
    assert k in mj && j in mk;
    assert mj.Keys == m.Keys - {j};
    assert mk.Keys == m.Keys - {k};
    assert |mj| < |m| && |mk| < |m|;
    RemoveCommutes(m, j, k);
    TotalRemove(mj, k);
    TotalRemove(mk, j);
  }

  /** A table of positive counts sums to zero exactly when it is empty. */
  lemma TotalZero(m: Counts)
    requires AllPositive(m)
    ensures Total(m) == 0 <==> |m| == 0
  {
    if |m| > 0 {
      var k :| k in m;
      TotalRemove(m, k);
    }
  }

  /** One Bump raises the sum by exactly one. */
  lemma TotalBump(m: Counts, k: string)
    ensures Total(Bump(m, k)) == Total(m) + 1
  {
    var r := Bump(m, k);
    TotalRemove(r, k);
    if k in m {
      assert r - {k} == m - {k} by {
        assert (r - {k}).Keys == (m - {k}).Keys;
      }
      TotalRemove(m, k);
    } else {
      assert r - {k} == m by {
        assert (r - {k}).Keys == m.Keys;
      }
    }
  }

  lemma BumpPositive(m: Counts, k: string)
    requires AllPositive(m)
    ensures AllPositive(Bump(m, k))
  {
  }

  lemma BumpAllPositive(m: Counts, ks: seq<string>)
    requires AllPositive(m)
    ensures AllPositive(BumpAll(m, ks))
  {
    var r := BumpAll(m, ks);
    forall k | k in r
      ensures r[k] > 0
    {
      assert CountOf(r, k) == CountOf(m, k) + multiset(ks)[k];
      if k !in m {
        assert k in ks;
      }
    }
  }
}

=== FILE: logs.dfy ===
/**
 The aggregator: log records, the statistics builder that folds them into
 frequency tables, and the final statistics it derives.
 */
module Logs {
  import opened Counting
  import opened Tokens
  import opened Ranking

  /** The largest value of Rust's `u32`. */
  const U32Max: nat := 0xFFFF_FFFF

  type u32 = n: nat | n <= U32Max

  /** One parsed log line. */
  datatype LogEntry = LogEntry(
    timestamp: string,
    hostname: string,
    processName: string,
    pid: u32,
    message: string)

  /**
   The accumulator: how many records were added, per-process and per-host
   record counts, and per-keyword occurrence counts.
   */
  datatype LogStatsBuilder = LogStatsBuilder(
    totalEntries: nat,
    byProcess: Counts,
    byHostname: Counts,
    keywordCount: Counts)

  /** The summary handed to the output sink. */
  datatype LogStats = LogStats(
    totalEntries: nat,
    byProcess: Counts,
    byHostname: Counts,
    mostFrequentProcess: string,
    mostFrequentHostname: string,
    topKeywords: seq<string>)

  /** A builder with nothing added. */
  function New(): (b: LogStatsBuilder)
    ensures b.totalEntries == 0
    ensures |b.byProcess| == 0 && |b.byHostname| == 0 && |b.keywordCount| == 0
  {
    LogStatsBuilder(0, map[], map[], map[])
  }

  /**
   What every builder reachable from New satisfies: both count tables sum to
   the number of records, every key present was counted, and every keyword
   key is a non-empty, alphabetic, lower-case non-stopword.
   */
  ghost predicate Valid(b: LogStatsBuilder, stopwords: set<string>) {
    && Total(b.byProcess) == b.totalEntries
    && Total(b.byHostname) == b.totalEntries
    && AllPositive(b.byProcess)
    && AllPositive(b.byHostname)
    && AllPositive(b.keywordCount)
    && forall k :: k in b.keywordCount ==> IsKeyword(k, stopwords)
  }

  /**
   Counts one record: one more record in total, one more for its process and
   for its host, and one more for each keyword occurrence in its message.
   */
  function AddLogEntry(b: LogStatsBuilder, e: LogEntry, stopwords: set<string>): (r: LogStatsBuilder)
    ensures r.totalEntries == b.totalEntries + 1
    ensures r.byProcess.Keys == b.byProcess.Keys + {e.processName}
    ensures r.byProcess[e.processName] == CountOf(b.byProcess, e.processName) + 1
    ensures forall p :: p in b.byProcess && p != e.processName ==> r.byProcess[p] == b.byProcess[p]
    ensures r.byHostname.Keys == b.byHostname.Keys + {e.hostname}
    ensures r.byHostname[e.hostname] == CountOf(b.byHostname, e.hostname) + 1
    ensures forall h :: h in b.byHostname && h != e.hostname ==> r.byHostname[h] == b.byHostname[h]
    ensures forall k :: CountOf(r.keywordCount, k) == CountOf(b.keywordCount, k) + multiset(Keywords(e.message, stopwords))[k]
    ensures forall k :: k in r.keywordCount ==> k in b.keywordCount || IsKeyword(k, stopwords)
  {
    LogStatsBuilder(
      b.totalEntries + 1,
      Bump(b.byProcess, e.processName),
      Bump(b.byHostname, e.hostname),
      BumpAll(b.keywordCount, Keywords(e.message, stopwords)))
  }

  /** Adding a record keeps the builder invariant. */
  lemma AddPreservesValid(b: LogStatsBuilder, e: LogEntry, stopwords: set<string>)
    requires Valid(b, stopwords)
    ensures Valid(AddLogEntry(b, e, stopwords), stopwords)
  {
    AddKeepsTotals(b, e, stopwords);
    AddKeepsKeys(b, e, stopwords);
  }

  /** Both tables gain exactly one count, as the total does. */
  lemma AddKeepsTotals(b: LogStatsBuilder, e: LogEntry, stopwords: set<string>)
    requires Total(b.byProcess) == b.totalEntries && Total(b.byHostname) == b.totalEntries
    ensures var r := AddLogEntry(b, e, stopwords);
      Total(r.byProcess) == r.totalEntries && Total(r.byHostname) == r.totalEntries
  {
    var r := AddLogEntry(b, e, stopwords);
    assert r.byProcess == Bump(b.byProcess, e.processName);
    assert r.byHostname == Bump(b.byHostname, e.hostname);
    TotalBump(b.byProcess, e.processName);
    TotalBump(b.byHostname, e.hostname);
  }

  /** No zero count appears, and only keywords are added to the keyword table. */
  lemma AddKeepsKeys(b: LogStatsBuilder, e: LogEntry, stopwords: set<string>)
    requires AllPositive(b.byProcess) && AllPositive(b.byHostname) && AllPositive(b.keywordCount)
    requires forall k :: k in b.keywordCount ==> IsKeyword(k, stopwords)
    ensures var r := AddLogEntry(b, e, stopwords);
      && AllPositive(r.byProcess) && AllPositive(r.byHostname) && AllPositive(r.keywordCount)
      && forall k :: k in r.keywordCount ==> IsKeyword(k, stopwords)
  {
    var r := AddLogEntry(b, e, stopwords);
    assert r.byProcess == Bump(b.byProcess, e.processName);
    assert r.byHostname == Bump(b.byHostname, e.hostname);
    assert r.keywordCount == BumpAll(b.keywordCount, Keywords(e.message, stopwords));
    BumpPositive(b.byProcess, e.processName);
    BumpPositive(b.byHostname, e.hostname);
    BumpAllPositive(b.keywordCount, Keywords(e.message, stopwords));
  }

  /** Adds the records one after another, in order. */
  function AddAll(b: LogStatsBuilder, entries: seq<LogEntry>, stopwords: set<string>): (r: LogStatsBuilder)
    ensures r.totalEntries == b.totalEntries + |entries|
    decreases |entries|
  {
    if |entries| == 0 then b
    else AddAll(AddLogEntry(b, entries[0], stopwords), entries[1..], stopwords)
  }

  /**
   Count conservation: after any sequence of records added to a fresh
   builder, the per-process and the per-host counts both sum to the number of
   records, and the keyword table holds only keywords.
   */
  lemma {:induction false} AddAllValid(b: LogStatsBuilder, entries: seq<LogEntry>, stopwords: set<string>)
    requires Valid(b, stopwords)
    ensures Valid(AddAll(b, entries, stopwords), stopwords)
    decreases |entries|
  {
    if |entries| > 0 {
      AddPreservesValid(b, entries[0], stopwords);
      AddAllValid(AddLogEntry(b, entries[0], stopwords), entries[1..], stopwords);
    }
  }

  lemma NewValid(stopwords: set<string>)
    ensures Valid(New(), stopwords)
  {
  }

  /** Keyword counts never go down as records are added. */
  lemma {:induction false} AddAllMonotone(b: LogStatsBuilder, entries: seq<LogEntry>, stopwords: set<string>, k: string)
    ensures CountOf(AddAll(b, entries, stopwords).keywordCount, k) >= CountOf(b.keywordCount, k)
    ensures CountOf(AddAll(b, entries, stopwords).byProcess, k) >= CountOf(b.byProcess, k)
    ensures CountOf(AddAll(b, entries, stopwords).byHostname, k) >= CountOf(b.byHostname, k)
    decreases |entries|
  {
    if |entries| > 0 {
      AddAllMonotone(AddLogEntry(b, entries[0], stopwords), entries[1..], stopwords, k);
    }
  }

  /**
   A valid builder has seen no record exactly when its process table is
   empty, and then both most frequent names are empty too.
   */
  lemma NoRecords(b: LogStatsBuilder, stopwords: set<string>, process: string, hostname: string)
    requires Valid(b, stopwords)
    requires IsMostFrequent(b.byProcess, process) && IsMostFrequent(b.byHostname, hostname)
    ensures b.totalEntries == 0 <==> process == "" && hostname == "" && |b.byProcess| == 0
  {
    TotalZero(b.byProcess);
    TotalZero(b.byHostname);
    MostFrequentEmpty(b.byProcess, process);
    MostFrequentEmpty(b.byHostname, hostname);
  }

  /** Every keyword the cutoff keeps from a valid builder is a keyword. */
  lemma TopAreKeywords(b: LogStatsBuilder, stopwords: set<string>, ranked: seq<Entry>, top: seq<string>)
    requires Valid(b, stopwords)
    requires IsRanking(b.keywordCount, ranked) && IsCutoff(ranked, top)
    ensures forall i :: 0 <= i < |top| ==> IsKeyword(top[i], stopwords)
  {
    TopKeywordsShape(b.keywordCount, ranked, top);
  }

  /**
   Consumes the builder: passes the total and both tables through, picks a
   most frequent process and host, and ranks and cuts the keywords.
   */
  method Build(b: LogStatsBuilder) returns (s: LogStats)
    ensures s.totalEntries == b.totalEntries
    ensures s.byProcess == b.byProcess && s.byHostname == b.byHostname
    ensures IsMostFrequent(b.byProcess, s.mostFrequentProcess)
    ensures IsMostFrequent(b.byHostname, s.mostFrequentHostname)
    ensures exists ranked :: IsRanking(b.keywordCount, ranked) && IsCutoff(ranked, s.topKeywords)
  {
    var process := MostFrequent(b.byProcess);
    var hostname := MostFrequent(b.byHostname);
    var ranked := Rank(b.keywordCount);
    var top := TopKeywords(ranked);
    s := LogStats(b.totalEntries, b.byProcess, b.byHostname, process, hostname, top);
  }
}

=== FILE: parser.dfy ===
/**
 The record parser: slices one line off a byte buffer and splits it into the
 fields of a LogEntry, and the iterator that repeats this until the buffer is
 used up. Every field step is a maximal-prefix take (TakeWhile) or a
 single-character take.
 */
module Parser {
  import opened Results
  import opened Text
  import opened Logs

  type byte = b: int | 0 <= b < 0x100

  /** Line terminators: the null byte and the line feed. */
  predicate IsSeparator(b: byte) {
    b == 0x00 || b == 0x0A
  }

  predicate IsNotSeparator(b: byte) {
    !IsSeparator(b)
  }

  /**
   Why a record could not be parsed. A missing character where one is taken
   is MalformedRecord, undecodable line bytes are InvalidText, and a pid run
   that is empty or does not fit in 32 bits is InvalidPid. Each one ends the
   whole run.
   */
  datatype ParseError = MalformedRecord | InvalidText | InvalidPid

  /** ASCII text as bytes. */
  function Encode(s: string): (b: seq<byte>)
    requires All(s, IsAscii)
    ensures |b| == |s|
    ensures forall i :: 0 <= i < |s| ==> b[i] == s[i] as int
  {
    if |s| == 0 then [] else [s[0] as int] + Encode(s[1..])
  }

  /** Bytes as text; a byte outside ASCII is rejected. */
  function Decode(b: seq<byte>): (r: Result<string, ParseError>)
    ensures r.Success? <==> forall i :: 0 <= i < |b| ==> b[i] < 0x80
    ensures r.Failure? ==> r.error == InvalidText
    ensures r.Success? ==> All(r.value, IsAscii) && Encode(r.value) == b
  {
    if |b| == 0 then Success("")
    else if b[0] >= 0x80 then Failure(InvalidText)
    else
      var rest :- Decode(b[1..]);
      assert [b[0]] + b[1..] == b;
      Success([b[0] as char] + rest)
  }

  lemma {:induction false} DecodeEncode(s: string)
    requires All(s, IsAscii)
    ensures Decode(Encode(s)) == Success(s)
  {
    if |s| > 0 {
      DecodeEncode(s[1..]);
      assert Encode(s)[1..] == Encode(s[1..]);
      assert [s[0]] + s[1..] == s;
    }
  }

  /**
   Takes one line: the bytes up to the first separator, decoded, and the
   buffer after the whole run of separators that follows it.
   */
  function ParseLine(data: seq<byte>): (r: Result<(string, seq<byte>), ParseError>)
    ensures r.Failure? ==> r.error == InvalidText
    ensures r.Success? ==>
      var (line, rest) := r.value;
      && |line| + |rest| <= |data|
      && All(line, IsAscii)
      && data[..|line|] == Encode(line)
      && All(data[|line|..|data| - |rest|], IsSeparator)
      && EndsWith(data, rest)
      && StopsRun(rest, IsSeparator)
      && (forall i :: 0 <= i < |line| ==> line[i] != '\0' && line[i] != '\n')
    ensures r.Success? ==> |r.value.1| == 0 || |r.value.0| + |r.value.1| < |data|
  {
    var (lineBytes, after) := TakeWhile(data, IsNotSeparator);
    var (seps, rest) := TakeWhile(after, IsSeparator);
    assert data == lineBytes + seps + rest;
    var line :- Decode(lineBytes);
    assert forall i :: 0 <= i < |line| ==> line[i] as int == lineBytes[i];
    Success((line, rest))
  }

  /**
   Slicing a line fails exactly when a byte outside ASCII comes before the
   first separator; bytes after the line are not looked at.
   */
  lemma ParseLineFails(data: seq<byte>)
    ensures ParseLine(data).Failure? <==>
      exists i :: 0 <= i < |data| && data[i] >= 0x80 && forall j :: 0 <= j < i ==> !IsSeparator(data[j])
  {
    var (lineBytes, after) := TakeWhile(data, IsNotSeparator);
    var (seps, rest) := TakeWhile(after, IsSeparator);
    assert ParseLine(data).Failure? <==> Decode(lineBytes).Failure?;
    if Decode(lineBytes).Failure? {
      var i :| 0 <= i < |lineBytes| && lineBytes[i] >= 0x80;
      assert data[i] == lineBytes[i];
      forall j | 0 <= j < i
        ensures !IsSeparator(data[j])
      {
        assert data[j] == lineBytes[j];
      }
    } else {
      forall i | 0 <= i < |data| && (forall j :: 0 <= j < i ==> !IsSeparator(data[j]))
        ensures data[i] < 0x80
      {
        if i < |lineBytes| {
          assert data[i] == lineBytes[i];
        } else {
          assert data[|lineBytes|] == after[0];
        }
      }
    }
  }

  predicate IsTimeChar(c: char) {
    IsDigit(c) || c == ':'
  }

  function ParseWhitespace(s: string): (r: (string, string))
    ensures r.0 + r.1 == s && All(r.0, IsWhitespace) && StopsRun(r.1, IsWhitespace)
  {
    TakeWhile(s, IsWhitespace)
  }

  /**
   Month (letters), day (digits) and time (digits and colons), each possibly
   empty and each followed by a skipped whitespace run, rebuilt with single
   spaces.
   */
  function ParseTimestamp(s: string): (r: (string, string))
    ensures EndsWith(s, r.1)
    ensures StopsRun(r.1, IsWhitespace)
  {
    var (month, s1) := TakeWhile(s, IsAlphabetic);
    var (w1, s2) := ParseWhitespace(s1);
    var (day, s3) := TakeWhile(s2, IsDigit);
    var (w2, s4) := ParseWhitespace(s3);
    var (time, s5) := TakeWhile(s4, IsTimeChar);
    var (w3, s6) := ParseWhitespace(s5);
    EndsWithConcat(month, s1);
    EndsWithConcat(w1, s2);
    EndsWithTransitive(s, s1, s2);
    EndsWithConcat(day, s3);
    EndsWithTransitive(s, s2, s3);
    EndsWithConcat(w2, s4);
    EndsWithTransitive(s, s3, s4);
    EndsWithConcat(time, s5);
    EndsWithTransitive(s, s4, s5);
    EndsWithConcat(w3, s6);
    EndsWithTransitive(s, s5, s6);
    (month + " " + day + " " + time, s6)
  }

  /** The grammar ParseTimestamp accepts, each run maximal. */
  lemma ParseTimestampExact(month: string, w1: string, day: string, w2: string, time: string, w3: string, rest: string)
    requires All(month, IsAlphabetic) && StopsRun(w1 + day + w2 + time + w3 + rest, IsAlphabetic)
    requires All(w1, IsWhitespace) && StopsRun(day + w2 + time + w3 + rest, IsWhitespace)
    requires All(day, IsDigit) && StopsRun(w2 + time + w3 + rest, IsDigit)
    requires All(w2, IsWhitespace) && StopsRun(time + w3 + rest, IsWhitespace)
    requires All(time, IsTimeChar) && StopsRun(w3 + rest, IsTimeChar)
    requires All(w3, IsWhitespace) && StopsRun(rest, IsWhitespace)
    ensures ParseTimestamp(month + w1 + day + w2 + time + w3 + rest) == (month + " " + day + " " + time, rest)
  {
    var s5 := w3 + rest;
    var s4 := time + s5;
    var s3 := w2 + s4;
    var s2 := day + s3;
    var s1 := w1 + s2;
    RightAssoc7(month, w1, day, w2, time, w3, rest);
    TakeWhileExact(month, s1, IsAlphabetic);
    TakeWhileExact(w1, s2, IsWhitespace);
    TakeWhileExact(day, s3, IsDigit);
    TakeWhileExact(w2, s4, IsWhitespace);
    TakeWhileExact(time, s5, IsTimeChar);
    TakeWhileExact(w3, rest, IsWhitespace);
  }

  /** The maximal non-whitespace run, then the whitespace after it skipped. */
  function ParseHostname(s: string): (r: (string, string))
    ensures |r.0| + |r.1| <= |s|
    ensures s[..|r.0|] == r.0 && All(r.0, IsNotWhitespace)
    ensures |r.0| == |s| || IsWhitespace(s[|r.0|])
    ensures All(s[|r.0|..|s| - |r.1|], IsWhitespace)
    ensures EndsWith(s, r.1) && StopsRun(r.1, IsWhitespace)
  {
    var (hostname, s1) := TakeWhile(s, IsNotWhitespace);
    var (w, s2) := ParseWhitespace(s1);
    ThreeParts(s, hostname, w, s2);
    (hostname, s2)
  }

  /** Where the parts of `s == head + (middle + tail)` sit in `s`. */
  lemma ThreeParts(s: string, head: string, middle: string, tail: string)
    requires s == head + (middle + tail)
    ensures |head| + |tail| <= |s|
    ensures s[..|head|] == head && s[|head|..|s| - |tail|] == middle
    ensures |head| < |s| ==> s[|head|] == (middle + tail)[0]
    ensures EndsWith(s, tail)
  {
    EndsWithConcat(head, middle + tail);
    EndsWithConcat(middle, tail);
    EndsWithTransitive(s, middle + tail, tail);
    assert s[|head|..|s| - |tail|] == (middle + tail)[..|middle|];
  }

  lemma ParseHostnameExact(hostname: string, w: string, rest: string)
    requires All(hostname, IsNotWhitespace) && StopsRun(w + rest, IsNotWhitespace)
    requires All(w, IsWhitespace) && StopsRun(rest, IsWhitespace)
    ensures ParseHostname(hostname + w + rest) == (hostname, rest)
  {
    assert hostname + w + rest == hostname + (w + rest);
    TakeWhileExact(hostname, w + rest, IsNotWhitespace);
    TakeWhileExact(w, rest, IsWhitespace);
  }

  predicate IsNotOpenBracket(c: char) {
    c != '['
  }

  /** Everything up to the first `[`; the rest is empty or starts with it. */
  function ParseProcessName(s: string): (r: (string, string))
    ensures r.0 + r.1 == s
    ensures forall i :: 0 <= i < |r.0| ==> r.0[i] != '['
    ensures |r.1| == 0 || r.1[0] == '['
  {
    TakeWhile(s, IsNotOpenBracket)
  }

  /**
   One character (meant to be `[`), the maximal digit run, two more
   characters (meant to be `]` and `:`, not checked), then whitespace. The
   digit run must denote a 32-bit value.
   */
  function ParsePid(s: string): (r: Result<(u32, string), ParseError>)
    ensures |s| == 0 ==> r == Failure(MalformedRecord)
    ensures |s| < 3 ==> r.Failure?
    ensures r.Success? ==> |r.value.1| + 4 <= |s| && EndsWith(s, r.value.1)
    ensures r.Success? ==> StopsRun(r.value.1, IsWhitespace)
  {
    if |s| == 0 then Failure(MalformedRecord)
    else
      ParsePidRest(s);
      var (digits, after) := TakeWhile(s[1..], IsDigit);
      if |after| < 2 then Failure(MalformedRecord)
      else
        var (w, rest) := ParseWhitespace(after[2..]);
        if |digits| == 0 || DecimalValue(digits) > U32Max then Failure(InvalidPid)
        else Success((DecimalValue(digits), rest))
  }

  /** What follows the pid field is a suffix of the field's input. */
  lemma ParsePidRest(s: string)
    requires |s| > 0
    ensures var (digits, after) := TakeWhile(s[1..], IsDigit);
      |after| >= 2 ==> EndsWith(s, ParseWhitespace(after[2..]).1)
  {
    var (digits, after) := TakeWhile(s[1..], IsDigit);
    if |after| >= 2 {
      var (w, rest) := ParseWhitespace(after[2..]);
      EndsWithConcat([s[0]], s[1..]);
      assert [s[0]] + s[1..] == s;
      EndsWithConcat(digits, after);
      EndsWithTransitive(s, s[1..], after);
      EndsWithConcat(after[..2], after[2..]);
      assert after[..2] + after[2..] == after;
      EndsWithTransitive(s, after, after[2..]);
      EndsWithConcat(w, rest);
      EndsWithTransitive(s, after[2..], rest);
    }
  }

  /** The grammar ParsePid accepts: the first and the two closing characters are arbitrary. */
  lemma ParsePidExact(open: char, digits: string, close: char, colon: char, w: string, rest: string)
    requires All(digits, IsDigit) && !IsDigit(close)
    requires All(w, IsWhitespace) && StopsRun(rest, IsWhitespace)
    ensures ParsePid([open] + digits + [close, colon] + w + rest)
      == if |digits| == 0 || DecimalValue(digits) > U32Max then Failure(InvalidPid)
         else Success((DecimalValue(digits), rest))
  {
    var tail := w + rest;
    var after := [close, colon] + tail;
    var s := [open] + (digits + after);
    ConcatAssoc([open], digits, after);
    ConcatAssoc([open] + digits, [close, colon], tail);
    ConcatAssoc([open] + digits + [close, colon], w, rest);
    assert s[1..] == digits + after;
    TakeWhileExact(digits, after, IsDigit);
    assert after[2..] == tail;
    TakeWhileExact(w, rest, IsWhitespace);
  }

  /**
   A digit run followed by fewer than two characters is malformed: the
   closing takes find nothing, whatever the digits say.
   */
  lemma ParsePidShort(open: char, digits: string, tail: string)
    requires All(digits, IsDigit) && StopsRun(tail, IsDigit) && |tail| < 2
    ensures ParsePid([open] + digits + tail) == Failure(MalformedRecord)
  {
    var s := [open] + (digits + tail);
    ConcatAssoc([open], digits, tail);
    assert s[1..] == digits + tail;
    TakeWhileExact(digits, tail, IsDigit);
  }

  /**
   Parses one record from the front of the buffer and returns it with the
   buffer after its line and the separators that follow. The message is
   whatever is left of the line after the pid field.
   */
  function ParseLogEntry(data: seq<byte>): (r: Result<(LogEntry, seq<byte>), ParseError>)
    ensures ParseLine(data).Failure? ==> r == Failure(InvalidText)
    ensures r.Success? ==>
      var (entry, rest) := r.value;
      && |rest| + 4 <= |data|
      && EndsWith(data, rest) && StopsRun(rest, IsSeparator)
      && forall i :: 0 <= i < |entry.message| ==> entry.message[i] != '\0' && entry.message[i] != '\n'
  {
    var lineAndRest :- ParseLine(data);
    var (line, rest) := lineAndRest;
    var (timestamp, afterTimestamp) := ParseTimestamp(line);
    var (hostname, afterHostname) := ParseHostname(afterTimestamp);
    var (processName, afterProcess) := ParseProcessName(afterHostname);
    var pidAndMessage :- ParsePid(afterProcess);
    var (pid, message) := pidAndMessage;
    MessageOfLine(line, afterTimestamp, afterHostname, processName, afterProcess, message);
    Success((LogEntry(timestamp, hostname, processName, pid, message), rest))
  }

  /**
   A record is one line: it leaves exactly what slicing off the line leaves,
   and its message is a tail of that line.
   */
  lemma RecordIsOneLine(data: seq<byte>)
    ensures ParseLogEntry(data).Success? ==>
      && ParseLine(data).Success?
      && ParseLogEntry(data).value.1 == ParseLine(data).value.1
      && EndsWith(ParseLine(data).value.0, ParseLogEntry(data).value.0.message)
  {
    if ParseLogEntry(data).Success? {
      var (line, rest) := ParseLine(data).value;
      var (timestamp, afterTimestamp) := ParseTimestamp(line);
      var (hostname, afterHostname) := ParseHostname(afterTimestamp);
      var (processName, afterProcess) := ParseProcessName(afterHostname);
      var (pid, message) := ParsePid(afterProcess).value;
      MessageOfLine(line, afterTimestamp, afterHostname, processName, afterProcess, message);
    }
  }

  /** A record is what its five steps give, when each of them succeeds. */
  lemma ParseLogEntrySteps(data: seq<byte>, line: string, rest: seq<byte>, timestamp: string,
                           afterTimestamp: string, hostname: string, afterHostname: string,
                           processName: string, afterProcess: string, pid: u32, message: string)
    requires ParseLine(data) == Success((line, rest))
    requires ParseTimestamp(line) == (timestamp, afterTimestamp)
    requires ParseHostname(afterTimestamp) == (hostname, afterHostname)
    requires ParseProcessName(afterHostname) == (processName, afterProcess)
    requires ParsePid(afterProcess) == Success((pid, message))
    ensures ParseLogEntry(data) == Success((LogEntry(timestamp, hostname, processName, pid, message), rest))
  {
  }

  /**
   The message is the tail of its line after at least the four characters of
   the pid field, so it holds no separator either.
   */
  lemma MessageOfLine(line: string, afterTimestamp: string, afterHostname: string,
                      processName: string, afterProcess: string, message: string)
    requires forall i :: 0 <= i < |line| ==> line[i] != '\0' && line[i] != '\n'
    requires EndsWith(line, afterTimestamp) && EndsWith(afterTimestamp, afterHostname)
    requires processName + afterProcess == afterHostname
    requires EndsWith(afterProcess, message) && |message| + 4 <= |afterProcess|
    ensures EndsWith(line, message) && |message| + 4 <= |line|
    ensures forall i :: 0 <= i < |message| ==> message[i] != '\0' && message[i] != '\n'
  {
    EndsWithConcat(processName, afterProcess);
    EndsWithTransitive(afterTimestamp, afterHostname, afterProcess);
    EndsWithTransitive(line, afterTimestamp, afterProcess);
    EndsWithTransitive(line, afterProcess, message);
    forall i | 0 <= i < |message|
      ensures message[i] != '\0' && message[i] != '\n'
    {
      assert message[i] == line[|line| - |message| + i];
    }
  }

  /**
   One iterator step: nothing on an empty buffer, otherwise one record and the
   rest of the buffer, or the error that ends the run.
   */
  function Next(data: seq<byte>): (r: Result<Option<(LogEntry, seq<byte>)>, ParseError>)
    ensures r.Success? && r.value.None? <==> |data| == 0
    ensures r.Success? && r.value.Some? ==> |r.value.value.1| + 4 <= |data|
    ensures |data| > 0 ==> (r.Failure? <==> ParseLogEntry(data).Failure?)
    ensures r.Failure? ==> r.error == ParseLogEntry(data).error
    ensures r.Success? && r.value.Some? ==> r.value.value == ParseLogEntry(data).value
  {
    if |data| == 0 then Success(None)
    else
      var entryAndRest :- ParseLogEntry(data);
      Success(Some(entryAndRest))
  }

  /**
   Runs the iterator to the end: every record of the buffer, in order, or the
   first error met (a bad record is never skipped).
   */
  function ParseAll(data: seq<byte>): (r: Result<seq<LogEntry>, ParseError>)
    ensures |data| == 0 ==> r == Success([])
    ensures r.Success? ==> 4 * |r.value| <= |data|
    ensures |data| > 0 && ParseLogEntry(data).Failure? ==> r == Failure(ParseLogEntry(data).error)
    ensures |data| > 0 && r.Success? ==> |r.value| > 0 && r.value[0] == ParseLogEntry(data).value.0
    decreases |data|
  {
    match Next(data)
    case Failure(e) => Failure(e)
    case Success(None) => Success([])
    case Success(Some((entry, rest))) =>
      var entries :- ParseAll(rest);
      Success([entry] + entries)
  }

  /** A buffer that starts with a separator fails: its first line is empty and has no pid field. */
  lemma LeadingSeparatorFails(data: seq<byte>)
    requires |data| > 0 && IsSeparator(data[0])
    ensures ParseLogEntry(data) == Failure(MalformedRecord)
    ensures ParseAll(data) == Failure(MalformedRecord)
  {
    assert TakeWhile(data, IsNotSeparator).0 == [];
    assert ParseLine(data).value.0 == "";
  }

  /** A bad first record fails the whole run with its own error; it is not skipped. */
  lemma ParseAllFails(data: seq<byte>)
    requires |data| > 0 && ParseLogEntry(data).Failure?
    ensures ParseAll(data) == Failure(ParseLogEntry(data).error)
  {
  }

  /**
   A line without `[` has no pid field: the process name takes the rest of
   the line and the pid step finds nothing, so the record is malformed.
   */
  lemma NoPidFieldFails(data: seq<byte>)
    requires ParseLine(data).Success?
    requires forall i :: 0 <= i < |ParseLine(data).value.0| ==> ParseLine(data).value.0[i] != '['
    ensures ParseLogEntry(data) == Failure(MalformedRecord)
  {
    var line := ParseLine(data).value.0;
    var afterTimestamp := ParseTimestamp(line).1;
    var afterHostname := ParseHostname(afterTimestamp).1;
    EndsWithTransitive(line, afterTimestamp, afterHostname);
    NoBracketLeavesNothing(line, afterHostname);
  }

  /** On a tail of a line without `[`, the process name is everything. */
  lemma NoBracketLeavesNothing(line: string, tail: string)
    requires forall i :: 0 <= i < |line| ==> line[i] != '['
    requires EndsWith(line, tail)
    ensures ParseProcessName(tail).1 == []
  {
    forall i | 0 <= i < |tail|
      ensures IsNotOpenBracket(tail[i])
    {
      assert tail[i] == line[|line| - |tail| + i];
    }
    TakeWhileExact(tail, [], IsNotOpenBracket);
    assert tail + [] == tail;
  }
}

=== FILE: ranking.dfy ===
/**
 The derived summaries of the aggregator: the most frequent key of a count
 table, and the ranked keyword list with its cutoff.
 */
module Ranking {
  import opened Text
  import opened Counting

  /** A keyword with its count. */
  type Entry = (string, nat)

  /** Ranking order: higher count first, ties by keyword ascending. */
  predicate Before(a: Entry, b: Entry) {
    a.1 > b.1 || (a.1 == b.1 && StrLt(a.0, b.0))
  }

  lemma BeforeIrreflexive(a: Entry)
    ensures !Before(a, a)
  {
    StrLtIrreflexive(a.0);
  }

  lemma BeforeAsymmetric(a: Entry, b: Entry)
    requires Before(a, b)
    ensures !Before(b, a)
  {
    if a.1 == b.1 && StrLt(b.0, a.0) {
      StrLtTransitive(a.0, b.0, a.0);
      StrLtIrreflexive(a.0);
    }
  }

  lemma BeforeTransitive(a: Entry, b: Entry, c: Entry)
    requires Before(a, b) && Before(b, c)
    ensures Before(a, c)
  {
    if a.1 == b.1 && b.1 == c.1 {
      StrLtTransitive(a.0, b.0, c.0);
    }
  }

  lemma BeforeTotal(a: Entry, b: Entry)
    requires a != b
    ensures Before(a, b) || Before(b, a)
  {
    if a.1 == b.1 {
      StrLtTotal(a.0, b.0);
    }
  }

  /** Strictly increasing in ranking order, hence free of duplicates. */
  predicate Sorted(s: seq<Entry>) {
    forall i, j :: 0 <= i < j < |s| ==> Before(s[i], s[j])
  }

  /** `s` lists every key of `m` exactly once with its count, in ranking order. */
  predicate IsRanking(m: Counts, s: seq<Entry>) {
    && Sorted(s)
    && (forall i :: 0 <= i < |s| ==> s[i].0 in m && s[i].1 == m[s[i].0])
    && (forall k :: k in m ==> (k, m[k]) in s)
  }

  /** Places `e` into a sorted sequence at its rank. */
  function Insert(s: seq<Entry>, e: Entry): (r: seq<Entry>)
    requires Sorted(s)
    requires e !in s
    ensures Sorted(r)
    ensures multiset(r) == multiset(s) + multiset{e}
  {
    if |s| == 0 then [e]
    else if Before(e, s[0]) then
      assert forall j :: 0 <= j < |s| ==> Before(e, s[j]) by {
        forall j | 0 <= j < |s|
          ensures Before(e, s[j])
        {
          if j > 0 {
            BeforeTransitive(e, s[0], s[j]);
          }
        }
      }
      [e] + s
    else
      assert Before(s[0], e) by {
        assert e != s[0];
        BeforeTotal(e, s[0]);
      }
      assert s == [s[0]] + s[1..];
      var r := [s[0]] + Insert(s[1..], e);
      assert forall j :: 0 < j < |r| ==> Before(s[0], r[j]) by {
        forall j | 0 < j < |r|
          ensures Before(s[0], r[j])
        {
          assert r[j] in multiset(Insert(s[1..], e));
          assert r[j] in s[1..] || r[j] == e;
        }
      }
      r
  }

  /**
   Collects the entries of `m` and sorts them (`iter().collect()` followed by
   `sort_by`). The keys are visited in an unspecified order, as a hash map's
   are; the ranking order is strict, so the result does not depend on it.
   */
  method Rank(m: Counts) returns (ranked: seq<Entry>)
    ensures IsRanking(m, ranked)
  {
    ranked := [];
    var rest := m.Keys;
    while rest != {}
      invariant rest <= m.Keys
      invariant Sorted(ranked)
      invariant forall i :: 0 <= i < |ranked| ==> ranked[i].0 in m && ranked[i].0 !in rest && ranked[i].1 == m[ranked[i].0]
      invariant forall k :: k in m && k !in rest ==> (k, m[k]) in ranked
      decreases rest
    {
      var k :| k in rest;
      var e := (k, m[k]);
      var before := ranked;
      ranked := Insert(before, e);
      forall x
        ensures x in ranked <==> x in before || x == e
      {
        assert x in ranked <==> x in multiset(ranked);
        assert x in before <==> x in multiset(before);
      }
      rest := rest - {k};
      forall i | 0 <= i < |ranked|
        ensures ranked[i].0 in m && ranked[i].0 !in rest && ranked[i].1 == m[ranked[i].0]
      {
        assert ranked[i] in before || ranked[i] == e;
      }
    }
  }

  /** Dropping the first entry of a ranking ranks the table without its key. */
  lemma RankingTail(m: Counts, r: seq<Entry>)
    requires IsRanking(m, r) && |r| > 0
    ensures r[0].0 in m
    ensures IsRanking(m - {r[0].0}, r[1..])
  {
    var a := r[0];
    var m' := m - {a.0};
    var t := r[1..];
    forall i | 0 <= i < |t|
      ensures t[i].0 in m' && t[i].1 == m'[t[i].0]
    {
      assert Before(a, t[i]) && t[i] == r[i + 1];
      BeforeIrreflexive(a);
    }
    forall k | k in m'
      ensures (k, m'[k]) in t
    {
      assert (k, m[k]) in r && (k, m[k]) != r[0];
      assert r == [r[0]] + t;
    }
  }

  /** Two rankings of the same table are the same sequence. */
  lemma {:induction false} RankingUnique(m: Counts, r1: seq<Entry>, r2: seq<Entry>)
    requires IsRanking(m, r1) && IsRanking(m, r2)
    ensures r1 == r2
    decreases |r1|
  {
    if |r1| > 0 {
      var a := r1[0];
      assert a.0 in m && (a.0, m[a.0]) in r2;
      var b := r2[0];
      assert b.0 in m && (b.0, m[b.0]) in r1;
      if a != b {
        var j :| 0 <= j < |r2| && r2[j] == a;
        var i :| 0 <= i < |r1| && r1[i] == b;
        assert Before(a, b);
        BeforeAsymmetric(a, b);
        assert false;
      }
      RankingTail(m, r1);
      RankingTail(m, r2);
      RankingUnique(m - {a.0}, r1[1..], r2[1..]);
      assert r1 == [a] + r1[1..] && r2 == [a] + r2[1..];
    } else if |r2| > 0 {
      RankingTail(m, r2);
      assert false;
    }
  }

  /** The list always keeps at least this many keywords when that many exist (`len() > 10`). */
  const MinTopKeywords: nat := 11

  /**
   `top` is what the cutoff keeps of `ranked`: everything when there are at
   most MinTopKeywords entries, otherwise the first MinTopKeywords entries and
   then exactly the following entries that tie with the last of those.
   */
  predicate IsCutoff(ranked: seq<Entry>, top: seq<string>) {
    && |top| <= |ranked|
    && (forall i :: 0 <= i < |top| ==> top[i] == ranked[i].0)
    && if |ranked| <= MinTopKeywords then |top| == |ranked|
       else
         && |top| >= MinTopKeywords
         && (forall i :: MinTopKeywords <= i < |top| ==> ranked[i].1 == ranked[MinTopKeywords - 1].1)
         && (|top| == |ranked| || ranked[|top|].1 != ranked[MinTopKeywords - 1].1)
  }

  /** The cutoff keeps a unique list. */
  lemma CutoffUnique(ranked: seq<Entry>, top1: seq<string>, top2: seq<string>)
    requires IsCutoff(ranked, top1) && IsCutoff(ranked, top2)
    ensures top1 == top2
  {
    assert |top1| == |top2|;
  }

  /**
   The walk over the ranked entries: push unconditionally while fewer than
   MinTopKeywords are kept, afterwards only while the count equals the one
   pushed last.
   */
  method TopKeywords(ranked: seq<Entry>) returns (top: seq<string>)
    ensures IsCutoff(ranked, top)
  {
    top := [];
    var prev: int := 0xFFFF_FFFF;
    var i := 0;
    while i < |ranked|
      invariant 0 <= i <= |ranked|
      invariant |top| == i
      invariant forall j :: 0 <= j < i ==> top[j] == ranked[j].0
      invariant i > 0 ==> prev == ranked[i - 1].1
      invariant forall j :: MinTopKeywords <= j < i ==> ranked[j].1 == ranked[MinTopKeywords - 1].1
    {
      if |top| > MinTopKeywords - 1 && ranked[i].1 != prev {
        break;
      }
      prev := ranked[i].1;
      top := top + [ranked[i].0];
      i := i + 1;
    }
  }

  /**
   The cutoff list is a duplicate-free prefix of the ranking: its keywords are
   keys of the table, in ranking order, and every keyword left out ranks
   after every keyword kept.
   */
  lemma TopKeywordsShape(m: Counts, ranked: seq<Entry>, top: seq<string>)
    requires IsRanking(m, ranked) && IsCutoff(ranked, top)
    ensures forall i :: 0 <= i < |top| ==> top[i] in m
    ensures forall i, j :: 0 <= i < j < |top| ==> top[i] != top[j]
    ensures forall i, j :: 0 <= i < j < |top| ==> Before((top[i], m[top[i]]), (top[j], m[top[j]]))
    ensures forall k, i :: k in m && k !in top && 0 <= i < |top| ==> Before((top[i], m[top[i]]), (k, m[k]))
    ensures |m| <= MinTopKeywords ==> forall k :: k in m ==> k in top
  {
    forall i, j | 0 <= i < j < |top|
      ensures top[i] != top[j]
    {
      assert Before(ranked[i], ranked[j]);
      if top[i] == top[j] {
        BeforeIrreflexive(ranked[i]);
      }
    }
    forall k, i | k in m && k !in top && 0 <= i < |top|
      ensures Before((top[i], m[top[i]]), (k, m[k]))
    {
      var j :| 0 <= j < |ranked| && ranked[j] == (k, m[k]);
      assert j < |top| ==> top[j] == k;
    }
    if |m| <= MinTopKeywords {
      RankingLength(m, ranked);
      forall k | k in m
        ensures k in top
      {
        var j :| 0 <= j < |ranked| && ranked[j] == (k, m[k]);
        assert top[j] == k;
      }
    }
  }

  /**
   Past MinTopKeywords entries the cutoff keeps exactly the entries whose
   count reaches the count at that boundary: a tie group is never split.
   */
  lemma CutoffByCount(m: Counts, ranked: seq<Entry>, top: seq<string>)
    requires IsRanking(m, ranked) && IsCutoff(ranked, top)
    requires |ranked| > MinTopKeywords
    ensures forall i :: 0 <= i < |ranked| ==> (i < |top| <==> ranked[i].1 >= ranked[MinTopKeywords - 1].1)
  {
    var boundary := ranked[MinTopKeywords - 1].1;
    forall i | 0 <= i < |ranked|
      ensures i < |top| <==> ranked[i].1 >= boundary
    {
      if i < MinTopKeywords - 1 {
        assert Before(ranked[i], ranked[MinTopKeywords - 1]);
      } else if |top| <= i {
        assert Before(ranked[MinTopKeywords - 1], ranked[|top|]);
        if |top| < i {
          assert Before(ranked[|top|], ranked[i]);
        }
      }
    }
  }

  /** A ranking has as many entries as the table has keys. */
  lemma {:induction false} RankingLength(m: Counts, ranked: seq<Entry>)
    requires IsRanking(m, ranked)
    ensures |ranked| == |m|
    decreases |ranked|
  {
    if |ranked| > 0 {
      RankingTail(m, ranked);
      var m' := m - {ranked[0].0};
      RankingLength(m', ranked[1..]);
      assert m'.Keys == m.Keys - {ranked[0].0};
    }
  }

  /**
   `name` is what the scan for the largest count yields: a key holding the
   largest count when some count is positive, otherwise the empty string.
   */
  predicate IsMostFrequent(m: Counts, name: string) {
    || (name == "" && forall k :: k in m ==> m[k] == 0)
    || (name in m && m[name] > 0 && forall k :: k in m ==> m[k] <= m[name])
  }

  /**
   Scans the table for the strictly largest count, starting from zero and the
   empty name. The visiting order is unspecified, so which of several tied
   keys wins is too.
   */
  method MostFrequent(m: Counts) returns (name: string)
    ensures IsMostFrequent(m, name)
  {
    name := "";
    var best := 0;
    var rest := m.Keys;
    while rest != {}
      invariant rest <= m.Keys
      invariant best == 0 ==> name == "" && forall k :: k in m && k !in rest ==> m[k] == 0
      invariant best > 0 ==> name in m && m[name] == best
      invariant forall k :: k in m && k !in rest ==> m[k] <= best
      decreases rest
    {
      var k :| k in rest;
      if m[k] > best {
        best := m[k];
        name := k;
      }
      rest := rest - {k};
    }
  }

  /** On a table whose keys were all counted, the scan yields "" for the empty table and otherwise a key holding the largest count. */
  lemma MostFrequentEmpty(m: Counts, name: string)
    requires AllPositive(m) && IsMostFrequent(m, name)
    ensures |m| == 0 ==> name == ""
    ensures |m| > 0 ==> name in m && forall k :: k in m ==> m[k] <= m[name]
  {
    if |m| > 0 {
      var k :| k in m;
      assert m[k] > 0;
    }
  }
}

=== FILE: results.dfy ===
/** Failure-compatible result types shared by the parser and the pipeline. */
module Results {

  /** A value that may be absent, as returned by an iterator step. */
  datatype Option<+T> = None | Some(value: T)

  /** Either a value or an error; usable with `:-`. */
  datatype Result<+T, +E> = Success(value: T) | Failure(error: E) {

    predicate IsFailure() {
      Failure?
    }

    function PropagateFailure<U>(): Result<U, E>
      requires Failure?
    {
      Failure(error)
    }

    function Extract(): T
      requires Success?
    {
      value
    }
  }
}

=== FILE: scenarios.dfy ===
/**
 Concrete runs of the aggregator, taken from the repository's own tests,
 and a tie at the eleventh place of the keyword cutoff.
 */
module Scenarios {
  import opened Text
  import opened Counting
  import opened Tokens
  import opened Ranking
  import opened Logs

  /** A single word is its own lower-cased keyword, unless that is a stopword. */
  lemma WordKeyword(w: string, stopwords: set<string>)
    requires |w| > 0 && All(w, IsAlphabetic)
    requires Lower(w) !in stopwords
    ensures Keywords(w, stopwords) == [Lower(w)]
  {
    SplitAlphabetic(w);
  }

  /** A message that is a word, a space and more text. */
  lemma FirstWord(message: string, word: string, more: string, keyword: string, stopwords: set<string>)
    requires message == word + " " + more
    requires PlainWord(word, keyword, stopwords)
    ensures Keywords(message, stopwords) == [keyword] + Keywords(more, stopwords)
  {
    WordKeyword(word, stopwords);
    KeywordsAtDelimiter(word, ' ', more, stopwords);
  }

  /** A word that is already its own keyword. */
  predicate PlainWord(w: string, keyword: string, stopwords: set<string>)
  {
    |w| > 0 && All(w, IsAlphabetic) && Lower(w) == keyword && keyword !in stopwords
  }

  /** Five space-separated plain words yield their five keywords, in order. */
  lemma FiveWords(w1: string, w2: string, w3: string, w4: string, w5: string,
                  k1: string, k2: string, k3: string, k4: string, k5: string, stopwords: set<string>)
    requires PlainWord(w1, k1, stopwords) && PlainWord(w2, k2, stopwords) && PlainWord(w3, k3, stopwords)
    requires PlainWord(w4, k4, stopwords) && PlainWord(w5, k5, stopwords)
    ensures Keywords(w1 + " " + (w2 + " " + (w3 + " " + (w4 + " " + w5))), stopwords) == [k1, k2, k3, k4, k5]
  {
    WordKeyword(w5, stopwords);
    FirstWord(w4 + " " + w5, w4, w5, k4, stopwords);
    FirstWord(w3 + " " + (w4 + " " + w5), w3, w4 + " " + w5, k3, stopwords);
    FirstWord(w2 + " " + (w3 + " " + (w4 + " " + w5)), w2, w3 + " " + (w4 + " " + w5), k2, stopwords);
    FirstWord(w1 + " " + (w2 + " " + (w3 + " " + (w4 + " " + w5))), w1, w2 + " " + (w3 + " " + (w4 + " " + w5)), k1, stopwords);
  }

  /** The five words of the test message are their own keywords. */
  lemma PlainAlfa(stopwords: set<string>)
    requires "alfa" !in stopwords
    ensures PlainWord("Alfa", "alfa", stopwords)
  {
    assert Lower("Alfa") == "alfa";
  }

  lemma PlainBravo(stopwords: set<string>)
    requires "bravo" !in stopwords
    ensures PlainWord("Bravo", "bravo", stopwords)
  {
    assert Lower("Bravo") == "bravo";
  }

  lemma PlainCharlie(stopwords: set<string>)
    requires "charlie" !in stopwords
    ensures PlainWord("Charlie", "charlie", stopwords)
  {
    assert Lower("Charlie") == "charlie";
  }

  lemma PlainDelta(stopwords: set<string>)
    requires "delta" !in stopwords
    ensures PlainWord("Delta", "delta", stopwords)
  {
    assert Lower("Delta") == "delta";
  }

  lemma PlainEcho(stopwords: set<string>)
    requires "echo" !in stopwords
    ensures PlainWord("Echo", "echo", stopwords)
  {
    assert Lower("Echo") == "echo";
  }

  /** The message of the single-entry test. */
  const SampleMessage: string := "Alfa Bravo Charlie Delta Echo"

  /** The keywords of the sample message, in order. */
  const FiveKeywords: seq<string> := ["alfa", "bravo", "charlie", "delta", "echo"]

  /** The sample message is its five words joined by single spaces. */
  lemma SampleMessageWords()
    ensures SampleMessage == "Alfa" + " " + ("Bravo" + " " + ("Charlie" + " " + ("Delta" + " " + "Echo")))
  {
  }

  /** "Alfa Bravo Charlie Delta Echo" has five keywords, in order. */
  lemma FiveWordKeywords(stopwords: set<string>)
    requires "alfa" !in stopwords && "bravo" !in stopwords && "charlie" !in stopwords
    requires "delta" !in stopwords && "echo" !in stopwords
    ensures Keywords(SampleMessage, stopwords) == FiveKeywords
  {
    PlainAlfa(stopwords);
    PlainBravo(stopwords);
    PlainCharlie(stopwords);
    PlainDelta(stopwords);
    PlainEcho(stopwords);
    SampleMessageWords();
    FiveWords("Alfa", "Bravo", "Charlie", "Delta", "Echo", "alfa", "bravo", "charlie", "delta", "echo", stopwords);
  }

  /** The record of the single-entry test. */
  const SampleEntry := LogEntry("Jul 1 09:00:55", "calvisitor-10-105-160-95", "kernel", 43, SampleMessage)

  /** Each of the five keywords counted once. */
  const FiveCounts: Counts := map["alfa" := 1, "bravo" := 1, "charlie" := 1, "delta" := 1, "echo" := 1]

  lemma FiveCountsOfKeywords()
    ensures (map k | k in FiveKeywords :: multiset(FiveKeywords)[k]) == FiveCounts
  {
    assert multiset(FiveKeywords)["alfa"] == 1;
    assert multiset(FiveKeywords)["bravo"] == 1;
    assert multiset(FiveKeywords)["charlie"] == 1;
    assert multiset(FiveKeywords)["delta"] == 1;
    assert multiset(FiveKeywords)["echo"] == 1;
  }

  /** Counting a list from nothing gives each member its number of occurrences. */
  lemma BumpAllFromEmpty(ks: seq<string>)
    ensures BumpAll(map[], ks) == map k | k in ks :: multiset(ks)[k]
  {
    var r := BumpAll(map[], ks);
    BumpAllPositive(map[], ks);
    forall k | k in r
      ensures k in ks && r[k] == multiset(ks)[k]
    {
      assert CountOf(r, k) == multiset(ks)[k];
    }
  }

  /** The five keywords, all tied at one, rank alphabetically. */
  lemma FiveCountsRanking()
    ensures IsRanking(FiveCounts, [("alfa", 1), ("bravo", 1), ("charlie", 1), ("delta", 1), ("echo", 1)])
  {
  }

  /** The only cut of the five tied keywords keeps all of them, alphabetically. */
  lemma FiveTop(ranked: seq<Entry>, top: seq<string>)
    requires IsRanking(FiveCounts, ranked) && IsCutoff(ranked, top)
    ensures top == FiveKeywords
  {
    var ranking := [("alfa", 1), ("bravo", 1), ("charlie", 1), ("delta", 1), ("echo", 1)];
    FiveCountsRanking();
    RankingUnique(FiveCounts, ranked, ranking);
  }

  /** A first record into an empty builder makes its process and host count once each. */
  lemma FirstRecordTables(e: LogEntry, stopwords: set<string>)
    ensures AddLogEntry(New(), e, stopwords).byProcess == map[e.processName := 1]
    ensures AddLogEntry(New(), e, stopwords).byHostname == map[e.hostname := 1]
  {
  }

  /** The only name most frequent in a one-key table is that key. */
  lemma SingletonMostFrequent(k: string, n: nat, name: string)
    requires n > 0
    requires IsMostFrequent(map[k := n], name)
    ensures name == k
  {
    assert k in map[k := n];
  }

  /**
   One record added to a fresh builder, then built: the record is counted
   once for its process and once for its host, both are most frequent, and
   the top keywords are the cutoff of the ranking of its keyword counts.
   */
  method OneRecord(e: LogEntry, keywords: seq<string>, stopwords: set<string>) returns (s: LogStats)
    requires Keywords(e.message, stopwords) == keywords
    ensures s.totalEntries == 1
    ensures s.byProcess == map[e.processName := 1]
    ensures s.byHostname == map[e.hostname := 1]
    ensures s.mostFrequentProcess == e.processName
    ensures s.mostFrequentHostname == e.hostname
    ensures exists ranked :: IsRanking(map k | k in keywords :: multiset(keywords)[k], ranked) && IsCutoff(ranked, s.topKeywords)
  {
    var b := AddLogEntry(New(), e, stopwords);
    s := Build(b);
    BumpAllFromEmpty(keywords);
    FirstRecordTables(e, stopwords);
    SingletonMostFrequent(e.processName, 1, s.mostFrequentProcess);
    SingletonMostFrequent(e.hostname, 1, s.mostFrequentHostname);
  }

  /**
   One record of process "kernel" on host "calvisitor-10-105-160-95" with
   message "Alfa Bravo Charlie Delta Echo": one record, that process and
   host counted once and most frequent, and all five keywords kept in
   alphabetical order (all tie at count 1).
   */
  method SingleEntry(stopwords: set<string>) returns (s: LogStats)
    requires "alfa" !in stopwords && "bravo" !in stopwords && "charlie" !in stopwords
    requires "delta" !in stopwords && "echo" !in stopwords
    ensures s.totalEntries == 1
    ensures s.byProcess == map["kernel" := 1]
    ensures s.byHostname == map["calvisitor-10-105-160-95" := 1]
    ensures s.mostFrequentProcess == "kernel"
    ensures s.mostFrequentHostname == "calvisitor-10-105-160-95"
    ensures s.topKeywords == FiveKeywords
  {
    FiveWordKeywords(stopwords);
    s := OneRecord(SampleEntry, FiveKeywords, stopwords);
    FiveCountsOfKeywords();
    var ranked :| IsRanking(FiveCounts, ranked) && IsCutoff(ranked, s.topKeywords);
    FiveTop(ranked, s.topKeywords);
  }

  /** The message of the repeated-word test. */
  const RepeatMessage: string := "Alfa Bravo Charlie Alfa Bravo"

  /** Its keywords, in message order, repeats included. */
  const RepeatKeywords: seq<string> := ["alfa", "bravo", "charlie", "alfa", "bravo"]

  /** Its keyword table: two each of alfa and bravo, one charlie. */
  const RepeatCounts: Counts := map["alfa" := 2, "bravo" := 2, "charlie" := 1]

  lemma RepeatCountsOfKeywords()
    ensures (map k | k in RepeatKeywords :: multiset(RepeatKeywords)[k]) == RepeatCounts
  {
    assert multiset(RepeatKeywords)["alfa"] == 2;
    assert multiset(RepeatKeywords)["bravo"] == 2;
    assert multiset(RepeatKeywords)["charlie"] == 1;
  }

  lemma RepeatMessageWords()
    ensures RepeatMessage == "Alfa" + " " + ("Bravo" + " " + ("Charlie" + " " + ("Alfa" + " " + "Bravo")))
  {
  }

  /** Repeated words give repeated keywords. */
  lemma RepeatWordKeywords(stopwords: set<string>)
    requires "alfa" !in stopwords && "bravo" !in stopwords && "charlie" !in stopwords
    ensures Keywords(RepeatMessage, stopwords) == RepeatKeywords
  {
    PlainAlfa(stopwords);
    PlainBravo(stopwords);
    PlainCharlie(stopwords);
    RepeatMessageWords();
    FiveWords("Alfa", "Bravo", "Charlie", "Alfa", "Bravo", "alfa", "bravo", "charlie", "alfa", "bravo", stopwords);
  }

  /** alfa and bravo tie at two and rank alphabetically, ahead of charlie at one. */
  lemma RepeatCountsRanking()
    ensures IsRanking(RepeatCounts, [("alfa", 2), ("bravo", 2), ("charlie", 1)])
  {
  }

  /** With three keywords the cutoff keeps them all. */
  lemma RepeatTop(ranked: seq<Entry>, top: seq<string>)
    requires IsRanking(RepeatCounts, ranked) && IsCutoff(ranked, top)
    ensures top == ["alfa", "bravo", "charlie"]
  {
    var ranking := [("alfa", 2), ("bravo", 2), ("charlie", 1)];
    RepeatCountsRanking();
    RankingUnique(RepeatCounts, ranked, ranking);
  }

  /** The record of the repeated-word test. */
  const RepeatEntry := LogEntry("Jul 1 09:00:55", "home", "netbiosd", 43, RepeatMessage)

  /**
   One record of process "netbiosd" on host "home" with message
   "Alfa Bravo Charlie Alfa Bravo": alfa and bravo count twice, charlie once,
   and with only three keywords, fewer than the minimum of eleven, all three
   are kept.
   */
  method RepeatedWords(stopwords: set<string>) returns (s: LogStats)
    requires "alfa" !in stopwords && "bravo" !in stopwords && "charlie" !in stopwords
    ensures s.totalEntries == 1
    ensures s.byProcess == map["netbiosd" := 1]
    ensures s.byHostname == map["home" := 1]
    ensures s.mostFrequentProcess == "netbiosd"
    ensures s.mostFrequentHostname == "home"
    ensures s.topKeywords == ["alfa", "bravo", "charlie"]
  {
    RepeatWordKeywords(stopwords);
    s := OneRecord(RepeatEntry, RepeatKeywords, stopwords);
    RepeatCountsOfKeywords();
    var ranked :| IsRanking(RepeatCounts, ranked) && IsCutoff(ranked, s.topKeywords);
    RepeatTop(ranked, s.topKeywords);
  }

  /**
   Thirteen ranked keywords with counts 5, 5, 5, then nine of 4, then 3: the
   eleventh has count 4 and ties with the twelfth, so twelve are kept and the
   one with count 3 is not.
   */
  lemma TieAtBoundary(ranked: seq<Entry>, top: seq<string>)
    requires |ranked| == 13 && IsCutoff(ranked, top)
    requires forall i :: 0 <= i < 3 ==> ranked[i].1 == 5
    requires forall i :: 3 <= i < 12 ==> ranked[i].1 == 4
    requires ranked[12].1 == 3
    ensures |top| == 12
    ensures forall i :: 0 <= i < 12 ==> top[i] == ranked[i].0
  {
    assert ranked[MinTopKeywords - 1].1 == 4;
    assert ranked[11].1 == 4;
  }
}

=== FILE: syslog_lines.dfy ===
/**
 The line format the parser reads, as a printer: a syslog line built from
 its fields and the whitespace between them, and the proof that the parser
 gives the fields back. The printer is the inverse the parser is checked
 against; it is not part of the analyser itself.
 */
module SyslogLines {
  import opened Results
  import opened Text
  import opened Logs
  import opened Parser

  /**
   The whitespace runs of a line: after the month, the day, the time, the
   hostname, and the `]:` of the pid field.
   */
  datatype Spacing = Spacing(
    afterMonth: string,
    afterDay: string,
    afterTime: string,
    afterHost: string,
    afterPid: string)

  /** The fields of one line as they are written in the file. */
  datatype SyslogLine = SyslogLine(
    month: string,
    day: string,
    time: string,
    hostname: string,
    processName: string,
    pid: u32,
    message: string,
    spacing: Spacing)

  /** A character a line can hold: ASCII, and neither separator. */
  predicate IsLineChar(c: char) {
    IsAscii(c) && c != '\0' && c != '\n'
  }

  /** A whitespace run a line can hold. */
  predicate IsGap(w: string) {
    All(w, IsWhitespace) && All(w, IsLineChar)
  }

  /**
   A line the parser reads back field for field: non-empty month, day, time
   and hostname made of their character classes; a process name without `[`;
   process name and message not starting with whitespace (the parser would
   skip it); no separator anywhere. The gaps are whitespace, and all but the
   one after the pid field are non-empty, as in `Jul  1 09:00:55`.
   */
  predicate WellFormed(l: SyslogLine) {
    && |l.month| > 0 && All(l.month, IsAlphabetic)
    && |l.day| > 0 && All(l.day, IsDigit)
    && |l.time| > 0 && All(l.time, IsTimeChar)
    && |l.hostname| > 0 && All(l.hostname, IsNotWhitespace) && All(l.hostname, IsLineChar)
    && All(l.processName, IsNotOpenBracket) && All(l.processName, IsLineChar) && StopsRun(l.processName, IsWhitespace)
    && All(l.message, IsLineChar) && StopsRun(l.message, IsWhitespace)
    && IsGap(l.spacing.afterMonth) && |l.spacing.afterMonth| > 0
    && IsGap(l.spacing.afterDay) && |l.spacing.afterDay| > 0
    && IsGap(l.spacing.afterTime) && |l.spacing.afterTime| > 0
    && IsGap(l.spacing.afterHost) && |l.spacing.afterHost| > 0
    && IsGap(l.spacing.afterPid)
  }

  /** From the `[` of the pid field to the end of the line. */
  function PidField(l: SyslogLine): string {
    ['['] + DecimalDigits(l.pid) + [']', ':'] + l.spacing.afterPid + l.message
  }

  /** From the hostname to the end of the line. */
  function HostField(l: SyslogLine): string {
    l.hostname + l.spacing.afterHost + (l.processName + PidField(l))
  }

  /** `Mon D HH:MM:SS host process[pid]: message`, with the line's own gaps. */
  function Render(l: SyslogLine): string {
    l.month + l.spacing.afterMonth + l.day + l.spacing.afterDay + l.time + l.spacing.afterTime + HostField(l)
  }

  /** The record the parser is meant to produce for a line: the timestamp is rebuilt with single spaces. */
  function ToEntry(l: SyslogLine): LogEntry {
    LogEntry(l.month + " " + l.day + " " + l.time, l.hostname, l.processName, l.pid, l.message)
  }

  lemma RenderLineChars(l: SyslogLine)
    requires WellFormed(l)
    ensures All(Render(l), IsLineChar)
  {
    var g := l.spacing;
    var digits := DecimalDigits(l.pid);
    assert All(l.month, IsLineChar);
    assert All(l.day, IsLineChar);
    assert All(l.time, IsLineChar);
    assert All(digits, IsLineChar);
    AllConcat(['['], digits, IsLineChar);
    AllConcat(['['] + digits, [']', ':'], IsLineChar);
    AllConcat(['['] + digits + [']', ':'], g.afterPid, IsLineChar);
    AllConcat(['['] + digits + [']', ':'] + g.afterPid, l.message, IsLineChar);
    AllConcat(l.processName, PidField(l), IsLineChar);
    AllConcat(l.hostname, g.afterHost, IsLineChar);
    AllConcat(l.hostname + g.afterHost, l.processName + PidField(l), IsLineChar);
    AllConcat(l.month, g.afterMonth, IsLineChar);
    AllConcat(l.month + g.afterMonth, l.day, IsLineChar);
    AllConcat(l.month + g.afterMonth + l.day, g.afterDay, IsLineChar);
    AllConcat(l.month + g.afterMonth + l.day + g.afterDay, l.time, IsLineChar);
    AllConcat(l.month + g.afterMonth + l.day + g.afterDay + l.time, g.afterTime, IsLineChar);
    AllConcat(l.month + g.afterMonth + l.day + g.afterDay + l.time + g.afterTime, HostField(l), IsLineChar);
  }

  /** A line of line characters followed by separators is sliced off exactly there. */
  lemma ParseLineExact(line: string, seps: seq<byte>, rest: seq<byte>)
    requires All(line, IsLineChar)
    requires All(seps, IsSeparator) && StopsRun(rest, IsSeparator)
    requires |seps| > 0 || |rest| == 0
    ensures ParseLine(Encode(line) + seps + rest) == Success((line, rest))
  {
    var bytes := Encode(line);
    assert All(bytes, IsNotSeparator) by {
      forall i | 0 <= i < |bytes|
        ensures IsNotSeparator(bytes[i])
      {
        assert bytes[i] == line[i] as int;
      }
    }
    ConcatAssoc(bytes, seps, rest);
    if |seps| == 0 {
      assert seps + rest == [];
    } else {
      assert (seps + rest)[0] == seps[0];
    }
    TakeWhileExact(bytes, seps + rest, IsNotSeparator);
    TakeWhileExact(seps, rest, IsSeparator);
    DecodeEncode(line);
  }

  lemma ParseTimestampOfRender(l: SyslogLine)
    requires WellFormed(l)
    ensures ParseTimestamp(Render(l)) == (l.month + " " + l.day + " " + l.time, HostField(l))
  {
    var g := l.spacing;
    var host := HostField(l);
    assert (g.afterMonth + l.day + g.afterDay + l.time + g.afterTime + host)[0] == g.afterMonth[0];
    assert (l.day + g.afterDay + l.time + g.afterTime + host)[0] == l.day[0];
    assert (g.afterDay + l.time + g.afterTime + host)[0] == g.afterDay[0];
    assert (l.time + g.afterTime + host)[0] == l.time[0];
    assert (g.afterTime + host)[0] == g.afterTime[0];
    assert host[0] == l.hostname[0];
    ParseTimestampExact(l.month, g.afterMonth, l.day, g.afterDay, l.time, g.afterTime, host);
  }

  lemma ParseFieldsOfHost(l: SyslogLine)
    requires WellFormed(l)
    ensures ParseHostname(HostField(l)) == (l.hostname, l.processName + PidField(l))
    ensures ParseProcessName(l.processName + PidField(l)) == (l.processName, PidField(l))
    ensures ParsePid(PidField(l)) == Success((l.pid, l.message))
  {
    var g := l.spacing;
    var pid := PidField(l);
    var rest := l.processName + pid;
    assert pid[0] == '[';
    assert (g.afterHost + rest)[0] == g.afterHost[0];
    if |l.processName| > 0 {
      assert rest[0] == l.processName[0];
    } else {
      assert rest == pid;
    }
    ParseHostnameExact(l.hostname, g.afterHost, rest);
    TakeWhileExact(l.processName, pid, IsNotOpenBracket);
    DecimalRoundTrip(l.pid);
    ParsePidExact('[', DecimalDigits(l.pid), ']', ':', g.afterPid, l.message);
  }

  /**
   Round trip: a well-formed line, followed by separators and the next
   record (or by nothing), parses to its own fields and leaves exactly the
   next record.
   */
  lemma ParseRendered(l: SyslogLine, seps: seq<byte>, rest: seq<byte>)
    requires WellFormed(l)
    requires All(seps, IsSeparator) && StopsRun(rest, IsSeparator)
    requires |seps| > 0 || |rest| == 0
    ensures All(Render(l), IsAscii)
    ensures ParseLogEntry(Encode(Render(l)) + seps + rest) == Success((ToEntry(l), rest))
  {
    RenderLineChars(l);
    ParseLineExact(Render(l), seps, rest);
    ParseTimestampOfRender(l);
    ParseFieldsOfHost(l);
    ParseLogEntrySteps(Encode(Render(l)) + seps + rest, Render(l), rest,
      l.month + " " + l.day + " " + l.time, HostField(l),
      l.hostname, l.processName + PidField(l),
      l.processName, PidField(l), l.pid, l.message);
  }

  /** A file of well-formed lines, each ended by a line feed. */
  function RenderLog(ls: seq<SyslogLine>): (data: seq<byte>)
    requires forall i :: 0 <= i < |ls| ==> WellFormed(ls[i])
  {
    if |ls| == 0 then []
    else
      RenderLineChars(ls[0]);
      Encode(Render(ls[0])) + [0x0A] + RenderLog(ls[1..])
  }

  function Entries(ls: seq<SyslogLine>): (es: seq<LogEntry>)
    ensures |es| == |ls|
  {
    if |ls| == 0 then [] else [ToEntry(ls[0])] + Entries(ls[1..])
  }

  /** The records of `entries` followed by the outcome of parsing the rest. */
  function Prepend(entries: seq<LogEntry>, r: Result<seq<LogEntry>, ParseError>): Result<seq<LogEntry>, ParseError> {
    match r
    case Success(more) => Success(entries + more)
    case Failure(e) => Failure(e)
  }

  /** One successful iterator step, then the rest of the run. */
  lemma ParseAllStep(data: seq<byte>, entry: LogEntry, rest: seq<byte>)
    requires |data| > 0 && ParseLogEntry(data) == Success((entry, rest))
    ensures ParseAll(data) == Prepend([entry], ParseAll(rest))
  {
    NextOfRecord(data, entry, rest);
    ParseAllOfNext(data, entry, rest);
  }

  lemma NextOfRecord(data: seq<byte>, entry: LogEntry, rest: seq<byte>)
    requires |data| > 0 && ParseLogEntry(data) == Success((entry, rest))
    ensures Next(data) == Success(Some((entry, rest)))
  {
  }

  lemma ParseAllOfNext(data: seq<byte>, entry: LogEntry, rest: seq<byte>)
    requires Next(data) == Success(Some((entry, rest)))
    ensures ParseAll(data) == Prepend([entry], ParseAll(rest))
  {
  }

  lemma PrependPrepend(e: LogEntry, es: seq<LogEntry>, r: Result<seq<LogEntry>, ParseError>)
    ensures Prepend([e], Prepend(es, r)) == Prepend([e] + es, r)
  {
    match r
    case Success(more) =>
      assert [e] + (es + more) == [e] + es + more;
    case Failure(_) =>
  }

  /** A rendered file followed by the tail does not start with a separator. */
  lemma RenderLogStart(ls: seq<SyslogLine>, tail: seq<byte>)
    requires forall i :: 0 <= i < |ls| ==> WellFormed(ls[i])
    requires StopsRun(tail, IsSeparator)
    ensures StopsRun(RenderLog(ls) + tail, IsSeparator)
  {
    if |ls| == 0 {
      assert RenderLog(ls) + tail == tail;
    } else {
      RenderLineChars(ls[0]);
      RenderStart(ls[0]);
      var data := RenderLog(ls);
      assert data[0] == Encode(Render(ls[0]))[0];
      assert (data + tail)[0] == data[0];
    }
  }

  /** A rendered line starts with the first letter of its month. */
  lemma RenderStart(l: SyslogLine)
    requires WellFormed(l)
    ensures |Render(l)| > 0 && Render(l)[0] == l.month[0] && IsAlphabetic(Render(l)[0])
  {
  }

  /**
   Parsing a file of well-formed lines followed by anything yields their
   records in order, followed by whatever the remainder yields: its records,
   or its error, which then ends the whole run.
   */
  lemma {:induction false} ParseAllRendered(ls: seq<SyslogLine>, tail: seq<byte>)
    requires forall i :: 0 <= i < |ls| ==> WellFormed(ls[i])
    requires StopsRun(tail, IsSeparator)
    ensures ParseAll(RenderLog(ls) + tail) == Prepend(Entries(ls), ParseAll(tail))
    decreases |ls|
  {
    if |ls| == 0 {
      assert RenderLog(ls) + tail == tail;
      match ParseAll(tail)
      case Success(more) => assert Entries(ls) + more == more;
      case Failure(_) =>
    } else {
      var l := ls[0];
      var next := RenderLog(ls[1..]) + tail;
      var data := RenderLog(ls) + tail;
      FirstRecordStep(ls, tail);
      ParseAllStep(data, ToEntry(l), next);
      ParseAllRendered(ls[1..], tail);
      PrependPrepend(ToEntry(l), Entries(ls[1..]), ParseAll(tail));
    }
  }

  /** The first rendered line of a file is parsed off alone, leaving the other lines and the tail. */
  lemma FirstRecordStep(ls: seq<SyslogLine>, tail: seq<byte>)
    requires |ls| > 0 && forall i :: 0 <= i < |ls| ==> WellFormed(ls[i])
    requires StopsRun(tail, IsSeparator)
    ensures |RenderLog(ls) + tail| > 0
    ensures ParseLogEntry(RenderLog(ls) + tail) == Success((ToEntry(ls[0]), RenderLog(ls[1..]) + tail))
  {
    RenderLogFirst(ls, tail);
    RenderLogStart(ls[1..], tail);
    ParseRendered(ls[0], [0x0A], RenderLog(ls[1..]) + tail);
  }

  /** A rendered file followed by a tail: the first line, its line feed, then the other lines and the tail. */
  lemma RenderLogFirst(ls: seq<SyslogLine>, tail: seq<byte>)
    requires |ls| > 0 && forall i :: 0 <= i < |ls| ==> WellFormed(ls[i])
    ensures All(Render(ls[0]), IsAscii)
    ensures RenderLog(ls) + tail == Encode(Render(ls[0])) + [0x0A] + (RenderLog(ls[1..]) + tail)
  {
    RenderLineChars(ls[0]);
    ConcatAssoc(Encode(Render(ls[0])) + [0x0A], RenderLog(ls[1..]), tail);
  }

  /** A file of well-formed lines parses to exactly their records. */
  lemma ParseLogRoundTrip(ls: seq<SyslogLine>)
    requires forall i :: 0 <= i < |ls| ==> WellFormed(ls[i])
    ensures ParseAll(RenderLog(ls)) == Success(Entries(ls))
  {
    ParseAllRendered(ls, []);
    assert RenderLog(ls) + [] == RenderLog(ls);
    assert Entries(ls) + [] == Entries(ls);
  }
}

=== FILE: text.dfy ===
/**
 Character classes, the "maximal prefix satisfying a predicate" combinator the
 parser is built from, lexicographic string order, lower-casing and decimal
 numbers. Character classes are the ASCII restriction of Rust's `char`
 predicates (`is_alphabetic`, `is_digit(10)`, `is_whitespace`).
 */
module Text {

  predicate IsAlphabetic(c: char) {
    'A' <= c <= 'Z' || 'a' <= c <= 'z'
  }

  predicate IsDigit(c: char) {
    '0' <= c <= '9'
  }

  /** Tab, line feed, vertical tab, form feed, carriage return and space. */
  predicate IsWhitespace(c: char) {
    '\t' <= c <= '\r' || c == ' '
  }

  predicate IsNotWhitespace(c: char) {
    !IsWhitespace(c)
  }

  predicate IsAscii(c: char) {
    c as int < 0x80
  }

  /** Every element of `s` satisfies `p`. */
  predicate All<T>(s: seq<T>, p: T -> bool) {
    forall i :: 0 <= i < |s| ==> p(s[i])
  }

  lemma AllConcat<T>(a: seq<T>, b: seq<T>, p: T -> bool)
    requires All(a, p) && All(b, p)
    ensures All(a + b, p)
  {
  }

  /** `s` is empty or its first element does not satisfy `p`: the point where a maximal run stops. */
  predicate StopsRun<T>(s: seq<T>, p: T -> bool) {
    |s| == 0 || !p(s[0])
  }

  /**
   The longest prefix of `s` whose elements all satisfy `p`, and what follows it
   (nom's `take_while`, which never fails on complete input).
   */
  function TakeWhile<T>(s: seq<T>, p: T -> bool): (r: (seq<T>, seq<T>))
    ensures r.0 + r.1 == s
    ensures All(r.0, p)
    ensures StopsRun(r.1, p)
  {
    if |s| == 0 || !p(s[0]) then ([], s)
    else
      var (run, rest) := TakeWhile(s[1..], p);
      ConsRun(s[0], run, rest, p);
      assert [s[0]] + s[1..] == s;
      ([s[0]] + run, rest)
  }

  /** A satisfying element in front of a run keeps it a run. */
  lemma ConsRun<T>(x: T, run: seq<T>, rest: seq<T>, p: T -> bool)
    requires p(x) && All(run, p)
    ensures All([x] + run, p)
    ensures [x] + run + rest == [x] + (run + rest)
  {
  }

  /** The split TakeWhile computes is the only one with its two properties. */
  lemma {:induction false} TakeWhileExact<T>(run: seq<T>, rest: seq<T>, p: T -> bool)
    requires All(run, p)
    requires StopsRun(rest, p)
    ensures TakeWhile(run + rest, p) == (run, rest)
  {
    if |run| == 0 {
      assert run + rest == rest;
    } else {
      assert (run + rest)[0] == run[0] && p(run[0]);
      assert (run + rest)[1..] == run[1..] + rest;
      TakeWhileExact(run[1..], rest, p);
      assert [run[0]] + run[1..] == run;
    }
  }

  lemma ConcatAssoc<T>(a: seq<T>, b: seq<T>, c: seq<T>)
    ensures a + (b + c) == a + b + c
  {
  }

  /** A left-nested concatenation of seven parts, and each of its suffixes, regrouped to the right. */
  lemma RightAssoc7<T>(a: seq<T>, b: seq<T>, c: seq<T>, d: seq<T>, e: seq<T>, f: seq<T>, g: seq<T>)
    ensures e + f + g == e + (f + g)
    ensures d + e + f + g == d + (e + (f + g))
    ensures c + d + e + f + g == c + (d + (e + (f + g)))
    ensures b + c + d + e + f + g == b + (c + (d + (e + (f + g))))
    ensures a + b + c + d + e + f + g == a + (b + (c + (d + (e + (f + g)))))
  {
    var r5 := f + g;
    var r4 := e + r5;
    var r3 := d + r4;
    var r2 := c + r3;
    ConcatAssoc(e, f, g);
    ConcatAssoc(d + e, f, g);
    ConcatAssoc(d, e, r5);
    ConcatAssoc(c + d + e, f, g);
    ConcatAssoc(c + d, e, r5);
    ConcatAssoc(c, d, r4);
    ConcatAssoc(b + c + d + e, f, g);
    ConcatAssoc(b + c + d, e, r5);
    ConcatAssoc(b + c, d, r4);
    ConcatAssoc(b, c, r3);
    ConcatAssoc(a + b + c + d + e, f, g);
    ConcatAssoc(a + b + c + d, e, r5);
    ConcatAssoc(a + b + c, d, r4);
    ConcatAssoc(a + b, c, r3);
    ConcatAssoc(a, b, r2);
  }

  /** `t` is a suffix of `s`: what a parser leaves unconsumed. */
  predicate EndsWith<T(==)>(s: seq<T>, t: seq<T>) {
    |t| <= |s| && s[|s| - |t|..] == t
  }

  lemma EndsWithConcat<T>(a: seq<T>, b: seq<T>)
    ensures EndsWith(a + b, b)
  {
    assert (a + b)[|a|..] == b;
  }

  lemma EndsWithTransitive<T>(s: seq<T>, t: seq<T>, u: seq<T>)
    requires EndsWith(s, t) && EndsWith(t, u)
    ensures EndsWith(s, u)
  {
    assert s[|s| - |u|..] == t[|t| - |u|..];
  }

  /** Lexicographic order by code point (Rust's `Ord` for `String`). */
  predicate StrLt(a: string, b: string) {
    if |a| == 0 then |b| > 0
    else if |b| == 0 then false
    else a[0] < b[0] || (a[0] == b[0] && StrLt(a[1..], b[1..]))
  }

  lemma {:induction false} StrLtIrreflexive(a: string)
    ensures !StrLt(a, a)
  {
    if |a| > 0 {
      StrLtIrreflexive(a[1..]);
    }
  }

  lemma {:induction false} StrLtTransitive(a: string, b: string, c: string)
    requires StrLt(a, b) && StrLt(b, c)
    ensures StrLt(a, c)
  {
    if |a| > 0 && a[0] == b[0] && b[0] == c[0] {
      StrLtTransitive(a[1..], b[1..], c[1..]);
    }
  }

  lemma {:induction false} StrLtTotal(a: string, b: string)
    requires a != b
    ensures StrLt(a, b) || StrLt(b, a)
  {
    if |a| > 0 && |b| > 0 && a[0] == b[0] {
      assert a == [a[0]] + a[1..] && b == [b[0]] + b[1..];
      StrLtTotal(a[1..], b[1..]);
    }
  }

  function ToLower(c: char): char {
    if 'A' <= c <= 'Z' then (c as int + 32) as char else c
  }

  /** ASCII lower-casing of a whole string (Rust's `to_lowercase` on ASCII text). */
  function Lower(s: string): (r: string)
    ensures |r| == |s|
    ensures forall i :: 0 <= i < |s| ==> r[i] == ToLower(s[i])
  {
    if |s| == 0 then [] else [ToLower(s[0])] + Lower(s[1..])
  }

  lemma LowerIdempotent(s: string)
    ensures Lower(Lower(s)) == Lower(s)
  {
  }

  lemma LowerKeepsAlphabetic(s: string)
    requires All(s, IsAlphabetic)
    ensures All(Lower(s), IsAlphabetic)
  {
  }

  function DigitValue(c: char): nat
    requires IsDigit(c)
  {
    c as int - '0' as int
  }

  function DigitChar(d: nat): (c: char)
    requires d < 10
    ensures IsDigit(c) && DigitValue(c) == d
  {
    ('0' as int + d) as char
  }

  /** The value of a run of decimal digits, most significant first. */
  function DecimalValue(s: string): nat
    requires All(s, IsDigit)
  {
    if |s| == 0 then 0 else DecimalValue(s[..|s| - 1]) * 10 + DigitValue(s[|s| - 1])
  }

  /** The canonical decimal spelling of `n`: no leading zeros, at least one digit. */
  function DecimalDigits(n: nat): (s: string)
    ensures |s| > 0 && All(s, IsDigit)
    ensures n >= 10 ==> s[0] != '0'
  {
    if n < 10 then [DigitChar(n)] else DecimalDigits(n / 10) + [DigitChar(n % 10)]
  }

  lemma {:induction false} DecimalRoundTrip(n: nat)
    ensures DecimalValue(DecimalDigits(n)) == n
  {
    var s := DecimalDigits(n);
    if n >= 10 {
      DecimalRoundTrip(n / 10);
      assert s[..|s| - 1] == DecimalDigits(n / 10);
    }
  }
}

=== FILE: tokens.dfy ===
/**
 Keyword extraction from a log message: split on every non-alphabetic
 character, lower-case each piece, drop empty pieces and stopwords.
 */
module Tokens {
  import opened Text

  /**
   The pieces between non-alphabetic characters, empty pieces included
   (`str::split` with a character predicate): a message with n delimiters
   has n + 1 pieces.
   */
  function Split(s: string): (r: seq<string>)
    ensures |r| == |Delimiters(s)| + 1
    ensures forall i :: 0 <= i < |r| ==> All(r[i], IsAlphabetic)
  {
    if |s| == 0 then [""]
    else
      var tail := Split(s[1..]);
      if IsAlphabetic(s[0]) then [[s[0]] + tail[0]] + tail[1..]
      else [""] + tail
  }

  /** The non-alphabetic characters of `s`, in order. */
  function Delimiters(s: string): (d: string)
    ensures forall i :: 0 <= i < |d| ==> !IsAlphabetic(d[i])
  {
    if |s| == 0 then ""
    else if IsAlphabetic(s[0]) then Delimiters(s[1..])
    else [s[0]] + Delimiters(s[1..])
  }

  /** Puts the delimiters back between the pieces: the inverse of Split. */
  function Join(pieces: seq<string>, delims: string): string
    requires |pieces| == |delims| + 1
    decreases |delims|
  {
    if |delims| == 0 then pieces[0]
    else pieces[0] + [delims[0]] + Join(pieces[1..], delims[1..])
  }

  lemma {:induction false} JoinPrepend(c: char, pieces: seq<string>, delims: string)
    requires |pieces| == |delims| + 1
    ensures Join([[c] + pieces[0]] + pieces[1..], delims) == [c] + Join(pieces, delims)
  {
    var q := [[c] + pieces[0]] + pieces[1..];
    if |delims| > 0 {
      assert q[1..] == pieces[1..];
    }
  }

  /** Splitting loses nothing: the pieces and the delimiters rebuild the message. */
  lemma {:induction false} SplitJoin(s: string)
    ensures Join(Split(s), Delimiters(s)) == s
  {
    if |s| > 0 {
      var tail := Split(s[1..]);
      SplitJoin(s[1..]);
      if IsAlphabetic(s[0]) {
        JoinPrepend(s[0], tail, Delimiters(s[1..]));
      } else {
        var q := [""] + tail;
        assert q[1..] == tail;
      }
      assert [s[0]] + s[1..] == s;
    }
  }

  lemma {:induction false} SplitAlphabetic(a: string)
    requires All(a, IsAlphabetic)
    ensures Split(a) == [a] && Delimiters(a) == ""
  {
    if |a| > 0 {
      SplitAlphabetic(a[1..]);
      assert [a[0]] + a[1..] == a;
    }
  }

  /** The pieces of a message that starts with `c`, given the pieces of the rest. */
  function ConsPiece(c: char, tail: seq<string>): seq<string>
    requires |tail| > 0
  {
    if IsAlphabetic(c) then [[c] + tail[0]] + tail[1..] else [""] + tail
  }

  /** One unfolding of Split on a message that starts with `c`. */
  lemma SplitCons(c: char, t: string)
    ensures Split([c] + t) == ConsPiece(c, Split(t))
  {
    assert ([c] + t)[1..] == t;
  }

  /** Adding a character in front only touches the first piece, so it commutes with appending pieces. */
  lemma ConsPieceAppend(c: char, ta: seq<string>, tb: seq<string>)
    requires |ta| > 0
    ensures ConsPiece(c, ta + tb) == ConsPiece(c, ta) + tb
  {
    if IsAlphabetic(c) {
      assert (ta + tb)[0] == ta[0];
      assert (ta + tb)[1..] == ta[1..] + tb;
      ConcatAssoc([[c] + ta[0]], ta[1..], tb);
    } else {
      ConcatAssoc([""], ta, tb);
    }
  }

  lemma {:induction false} PiecesAtDelimiter(a: string, d: char, b: string)
    requires !IsAlphabetic(d)
    ensures Split(a + [d] + b) == Split(a) + Split(b)
  {
    if |a| == 0 {
      assert a + [d] + b == [d] + b;
      SplitCons(d, b);
    } else {
      var c, a' := a[0], a[1..];
      var t := a' + [d] + b;
      ConcatAssoc([c], a' + [d], b);
      ConcatAssoc([c], a', [d]);
      assert a == [c] + a';
      PiecesAtDelimiter(a', d, b);
      SplitCons(c, t);
      SplitCons(c, a');
      ConsPieceAppend(c, Split(a'), Split(b));
    }
  }

  lemma {:induction false} DelimitersAtDelimiter(a: string, d: char, b: string)
    requires !IsAlphabetic(d)
    ensures Delimiters(a + [d] + b) == Delimiters(a) + [d] + Delimiters(b)
  {
    var s := a + [d] + b;
    if |a| == 0 {
      assert s[1..] == b;
    } else {
      assert s[1..] == a[1..] + [d] + b;
      DelimitersAtDelimiter(a[1..], d, b);
    }
  }

  /** Splitting at a delimiter splits the pieces there. */
  lemma SplitAtDelimiter(a: string, d: char, b: string)
    requires !IsAlphabetic(d)
    ensures Split(a + [d] + b) == Split(a) + Split(b)
    ensures Delimiters(a + [d] + b) == Delimiters(a) + [d] + Delimiters(b)
  {
    PiecesAtDelimiter(a, d, b);
    DelimitersAtDelimiter(a, d, b);
  }

  /** Pieces without delimiters, joined by delimiters, split back into the same pieces. */
  lemma {:induction false} JoinSplit(pieces: seq<string>, delims: string)
    requires |pieces| == |delims| + 1
    requires forall i :: 0 <= i < |pieces| ==> All(pieces[i], IsAlphabetic)
    requires forall i :: 0 <= i < |delims| ==> !IsAlphabetic(delims[i])
    ensures Split(Join(pieces, delims)) == pieces
    ensures Delimiters(Join(pieces, delims)) == delims
    decreases |delims|
  {
    SplitAlphabetic(pieces[0]);
    if |delims| > 0 {
      JoinSplit(pieces[1..], delims[1..]);
      SplitAtDelimiter(pieces[0], delims[0], Join(pieces[1..], delims[1..]));
      assert [pieces[0]] + pieces[1..] == pieces;
      assert [delims[0]] + delims[1..] == delims;
    }
  }

  /** A keyword as the aggregator stores it. */
  predicate IsKeyword(k: string, stopwords: set<string>) {
    && |k| > 0
    && All(k, IsAlphabetic)
    && Lower(k) == k
    && k !in stopwords
  }

  /** The lower-cased pieces that survive the stopword and emptiness filters, in order. */
  function KeywordsOf(pieces: seq<string>, stopwords: set<string>): (r: seq<string>)
    requires forall i :: 0 <= i < |pieces| ==> All(pieces[i], IsAlphabetic)
    ensures forall i :: 0 <= i < |r| ==> IsKeyword(r[i], stopwords)
    ensures |r| <= |pieces|
  {
    if |pieces| == 0 then []
    else
      var k := Lower(pieces[0]);
      LowerIdempotent(pieces[0]);
      LowerKeepsAlphabetic(pieces[0]);
      var rest := KeywordsOf(pieces[1..], stopwords);
      if k in stopwords || |k| == 0 then rest else [k] + rest
  }

  lemma {:induction false} KeywordsOfAppend(p: seq<string>, q: seq<string>, stopwords: set<string>)
    requires forall i :: 0 <= i < |p| ==> All(p[i], IsAlphabetic)
    requires forall i :: 0 <= i < |q| ==> All(q[i], IsAlphabetic)
    ensures KeywordsOf(p + q, stopwords) == KeywordsOf(p, stopwords) + KeywordsOf(q, stopwords)
  {
    if |p| == 0 {
      assert p + q == q;
    } else {
      assert (p + q)[1..] == p[1..] + q;
      KeywordsOfAppend(p[1..], q, stopwords);
    }
  }

  /** The keywords of a log message, in order of occurrence, repeats kept. */
  function Keywords(message: string, stopwords: set<string>): (r: seq<string>)
    ensures forall i :: 0 <= i < |r| ==> IsKeyword(r[i], stopwords)
  {
    KeywordsOf(Split(message), stopwords)
  }

  /** A delimiter separates keywords: nothing on one side affects the other. */
  lemma KeywordsAtDelimiter(a: string, d: char, b: string, stopwords: set<string>)
    requires !IsAlphabetic(d)
    ensures Keywords(a + [d] + b, stopwords) == Keywords(a, stopwords) + Keywords(b, stopwords)
  {
    SplitAtDelimiter(a, d, b);
    KeywordsOfAppend(Split(a), Split(b), stopwords);
  }

  /** The empty piece between two adjacent delimiters adds no keyword. */
  lemma AdjacentDelimiters(a: string, d1: char, d2: char, b: string, stopwords: set<string>)
    requires !IsAlphabetic(d1) && !IsAlphabetic(d2)
    ensures Keywords(a + [d1, d2] + b, stopwords) == Keywords(a + [d1] + b, stopwords)
  {
    assert a + [d1, d2] + b == a + [d1] + ([d2] + b);
    KeywordsAtDelimiter(a, d1, [d2] + b, stopwords);
    assert [d2] + b == [] + [d2] + b;
    KeywordsAtDelimiter([], d2, b, stopwords);
    KeywordsAtDelimiter(a, d1, b, stopwords);
    assert Keywords([], stopwords) == [];
  }

  /** A piece that is a stopword once lower-cased contributes nothing. */
  lemma StopwordDropped(w: string, stopwords: set<string>)
    requires All(w, IsAlphabetic)
    requires Lower(w) in stopwords
    ensures Keywords(w, stopwords) == []
  {
    SplitAlphabetic(w);
  }
}
